=== FILE: README.md ===
# SiniestrosViales — a verified model of the road-incident service core

SiniestrosViales records road incidents ("siniestros viales"). Each incident has an occurrence
instant, a department, a city, an incident type, a victim count, an optional description and the
vehicles involved. Department, city and type come from lookup tables, whose rows can be
deactivated. This project models the core of the service in Dafny and proves what it promises:

- the domain: `Entity`, the `Siniestro` aggregate with its guarded constructor, append-only vehicle
  list and two updates; the `VehiculoInvolucrado` value with its four ordered non-blank guards; the
  three lookup entities with their active flag;
- the create-payload rules (`CreateSiniestroCommandValidator` and `VehiculoInvolucradoDtoValidator`),
  as a function from a payload to the full ordered list of (property path, message) failures;
- the create handler: it builds the aggregate, adds one vehicle per payload entry and makes a single
  repository call. It is modelled as imperative code over a `SiniestroRepository` object;
- the listing and by-identifier query handlers, with the `PagedResult` page metadata;
- the repositories, over an in-memory store of row tables. This covers filtering by department and
  inclusive date range, ordering newest first, `Skip`/`Take` paging, the count, lookup by
  identifier, the two-step add, and the three "active only" lookup reads;
- the exception middleware: status classification, detail text and problem document.

Conventions:
- `Guid` is a natural number, with `0` as `Guid.Empty`. `Guid.NewGuid()` is a `GuidOracle` object
  that returns identifiers that are fresh and non-empty. The model assumes, as the source does,
  that a new `Guid` also differs from every identifier already stored. No invariant ties the
  stored identifiers to the oracle's issued set, so the add and lookup round-trip lemmas take
  that freshness as a precondition.
- `DateTime` is a tick count; `default(DateTime)` is 0 ticks. Every reading of `DateTime.UtcNow`
  becomes an explicit parameter. A create request reads the clock for the incident's
  constructor (`now`), once more in each vehicle's constructor (`relojes[i]` for entry `i`, via
  `Entity.cs:6`), and in the repository's rebuild (`later`). No order is assumed between these
  readings.
- `string?` is `Option<string>`. `string.IsNullOrWhiteSpace` uses .NET's white-space set.
  `MaximumLength` counts UTF-16 code units.
- C# `int` arithmetic is 32-bit where it matters: the page offset `(pageNumber - 1) * pageSize`
  wraps around.
- An exception is a value of the `Exception` datatype. A constructor that throws is a `Result`.
- AutoMapper's projection is a plain field copy (`Dtos.ToDto`).

The payload rules (`CreateSiniestroCommandValidator.cs`) reject identifiers that are not
positive and an empty vehicle list. The integration test
`SiniestrosViales.Tests/Integration/API/SiniestrosControllerTests.cs:84-101` marks them invalid,
together with a future instant and a negative victim count, and expects 400. That 400 comes from
the incident constructor's future-date guard, so the test does not single out the rules. No code runs the rules before the create handler (see
Findings); the model follows the code.

## Model

| member | source | states |
|---|---|---|
| Primitives.GuidOracle.NewGuid | SiniestrosViales.Domain/Common/Entity.cs:5 | `Guid.NewGuid()` returns a non-empty identifier that was never returned before |
| Common.Entity.constructor | SiniestrosViales.Domain/Common/Entity.cs:5-7 | a new entity has a fresh, non-empty `Id`, `FechaCreacion` = now and no `FechaModificacion` |
| Common.Entity.SetId | SiniestrosViales.Domain/Common/Entity.cs:9-15 | assigns only while `Id` is empty, never overwrites a set `Id`, so on a constructed entity it changes nothing |
| Vehiculos.Check | SiniestrosViales.Domain/ValueObjects/VehiculoInvolucrado.cs:16-26 | no error exactly when all four arguments are non-blank; any error is an `ArgumentException` without an inner exception |
| Vehiculos.NewVehiculo | SiniestrosViales.Domain/ValueObjects/VehiculoInvolucrado.cs:14-32 | a vehicle is produced exactly when every guard passes, and then it holds exactly the four given strings; otherwise the guard's error and no vehicle |
| Vehiculos.ReportsEarliestBlank | SiniestrosViales.Domain/ValueObjects/VehiculoInvolucrado.cs:16-26 | with several blank arguments, the error names the earliest in the order tipo, placa, marca, modelo, with that argument's message |
| Vehiculos.BlankTipoRejected | SiniestrosViales.Domain/ValueObjects/VehiculoInvolucrado.cs:16-17 | a null, empty or all-space `tipo` fails on `tipo`, whatever the other arguments |
| Siniestros.ConstructorError | SiniestrosViales.Domain/Entities/Siniestro.cs:29-33 | no error exactly when `fechaHora <= now` and `numeroVictimas >= 0`; a future instant is reported first, on `fechaHora`; otherwise a negative count on `numeroVictimas` |
| Siniestros.ConstructorErrorMonotone | SiniestrosViales.Domain/Entities/Siniestro.cs:29-30 | a construction accepted at one instant is accepted at any later instant |
| Siniestros.Siniestro.Init | SiniestrosViales.Domain/Entities/Siniestro.cs:35-40 | stores the six inputs unchanged and starts with no vehicles |
| Siniestros.Siniestro.Create | SiniestrosViales.Domain/Entities/Siniestro.cs:21-41 | fails exactly on the guard errors; on success it stores the six inputs, including identifiers without range checks and a null description, has no vehicles, a fresh identifier and creation instant `now`, and keeps `Valid` |
| Siniestros.Siniestro.AgregarVehiculo | SiniestrosViales.Domain/Entities/Siniestro.cs:43-49 | null gives `ArgumentNullException` on `vehiculo` with the list unchanged; otherwise the vehicle is appended |
| Siniestros.Siniestro.ActualizarDescripcion | SiniestrosViales.Domain/Entities/Siniestro.cs:51-55 | stores any description, null included, and stamps `FechaModificacion`; frames only those two fields |
| Siniestros.Siniestro.ActualizarNumeroVictimas | SiniestrosViales.Domain/Entities/Siniestro.cs:57-64 | a negative count fails and leaves count and stamp unchanged; any other count, 0 included, is stored and stamped |
| Catalogos.Departamento.constructor | SiniestrosViales.Domain/Entities/Departamento.cs:14-19 | stores nombre and código DANE, sets `Activo`, starts with no cities |
| Catalogos.Departamento.Desactivar | SiniestrosViales.Domain/Entities/Departamento.cs:21-24 | clears `Activo` and changes nothing else; applying it to an inactive department changes nothing (idempotent) |
| Catalogos.Departamento.Activar | SiniestrosViales.Domain/Entities/Departamento.cs:26-29 | sets `Activo` and changes nothing else; idempotent |
| Catalogos.Ciudad.constructor | SiniestrosViales.Domain/Entities/Ciudad.cs:15-21 | stores nombre, department and código DANE as given and sets `Activo` |
| Catalogos.Ciudad.Desactivar | SiniestrosViales.Domain/Entities/Ciudad.cs:23-26 | clears `Activo` and changes nothing else; idempotent |
| Catalogos.Ciudad.Activar | SiniestrosViales.Domain/Entities/Ciudad.cs:28-31 | sets `Activo` and changes nothing else; idempotent |
| Catalogos.TipoSiniestro.constructor | SiniestrosViales.Domain/Entities/TipoSiniestro.cs:13-18 | stores nombre and descripción and sets `Activo` |
| Catalogos.TipoSiniestro.Desactivar | SiniestrosViales.Domain/Entities/TipoSiniestro.cs:20-23 | clears `Activo` and changes nothing else; idempotent |
| Catalogos.TipoSiniestro.Activar | SiniestrosViales.Domain/Entities/TipoSiniestro.cs:25-28 | sets `Activo` and changes nothing else; idempotent |
| CatalogoRepositories.TiposSiniestroActivos | SiniestrosViales.Infrastructure/Repositories/CatalogoRepository.cs:17-22 | lists exactly the active types: none dropped, none inactive, each as often as stored |
| CatalogoRepositories.DepartamentosActivos | SiniestrosViales.Infrastructure/Repositories/CatalogoRepository.cs:24-29 | lists exactly the active departments, each as often as stored |
| CatalogoRepositories.CiudadesActivas | SiniestrosViales.Infrastructure/Repositories/CatalogoRepository.cs:31-41 | lists exactly the active cities, narrowed to the given department when there is one |
| CatalogoRepositories.CiudadesActivasIsOneFilter | SiniestrosViales.Infrastructure/Repositories/CatalogoRepository.cs:33-38 | the two chained filters select the same cities, in the same order, as one filter testing both conditions |
| CatalogoRepositories.DesactivarHidesDepartamento | SiniestrosViales.Infrastructure/Repositories/CatalogoRepository.cs:24-29 | with unique identifiers, a deactivated department drops out of the listing; the table keeps its length, and every other active department is still listed |
| CatalogoRepositories.DesactivarHidesTipoSiniestro | SiniestrosViales.Infrastructure/Repositories/CatalogoRepository.cs:17-22 | with unique identifiers, a deactivated type drops out of the listing; the table keeps its length, and every other active type is still listed |
| CatalogoRepositories.DesactivarHidesCiudad | SiniestrosViales.Infrastructure/Repositories/CatalogoRepository.cs:31-41 | with unique identifiers, a deactivated city drops out of the listing for any department filter; every other active city that passes the filter is still listed |
| Linq.OrderByDescending | SiniestrosViales.Infrastructure/Repositories/SiniestroRepository.cs:58 | the result is a permutation of the input whose keys never increase |
| Linq.Skip | SiniestrosViales.Infrastructure/Repositories/SiniestroRepository.cs:59 | drops the first `k` elements; a non-positive `k` drops none |
| Linq.Take | SiniestrosViales.Infrastructure/Repositories/SiniestroRepository.cs:60 | keeps the first `k` elements; a non-positive `k` keeps none |
| Store.VehiculoRows | SiniestrosViales.Infrastructure/Repositories/SiniestroRepository.cs:114-118 | one row per vehicle, in order, each carrying the vehicle's fields and the incident's identifier as foreign key |
| SiniestroRepositories.FindDepartamento | SiniestrosViales.Infrastructure/Repositories/SiniestroRepository.cs:20 | nothing exactly when no department has the identifier; otherwise the first department with it |
| SiniestroRepositories.FindCiudad | SiniestrosViales.Infrastructure/Repositories/SiniestroRepository.cs:21 | nothing exactly when no city has the identifier; otherwise the first city with it |
| SiniestroRepositories.FindTipoSiniestro | SiniestrosViales.Infrastructure/Repositories/SiniestroRepository.cs:22 | nothing exactly when no type has the identifier; otherwise the first type with it |
| SiniestroRepositories.AttachedTo | SiniestrosViales.Infrastructure/Repositories/SiniestroRepository.cs:23 | exactly the vehicle rows whose foreign key is the incident, each as often as stored |
| SiniestroRepositories.Load | SiniestrosViales.Infrastructure/Repositories/SiniestroRepository.cs:19-23 | each of department, city and type is missing exactly when no row has the referenced identifier, and otherwise is the first row with it; the vehicles are the rows attached to the incident, in the table's order (no order on the database; see Left out) |
| SiniestroRepositories.GetById | SiniestrosViales.Infrastructure/Repositories/SiniestroRepository.cs:17-25 | nothing exactly when no stored incident has the identifier; otherwise the first stored incident with it, loaded as `Load` states |
| SiniestroRepositories.Ordered | SiniestrosViales.Infrastructure/Repositories/SiniestroRepository.cs:42-58 | exactly the stored incidents matching every supplied filter, newest first |
| SiniestroRepositories.OrderedMultiplicity | SiniestrosViales.Infrastructure/Repositories/SiniestroRepository.cs:42-58 | each matching incident occurs in the listing as often as stored, and a non-matching one never |
| SiniestroRepositories.OrderedLength | SiniestrosViales.Infrastructure/Repositories/SiniestroRepository.cs:64-88 | the unpaged listing has exactly the counted length |
| SiniestroRepositories.PageRows | SiniestrosViales.Infrastructure/Repositories/SiniestroRepository.cs:57-61 | the page is the ordered listing sliced from the wrapped offset, holding at most `pageSize` incidents |
| SiniestroRepositories.GetWithFilters | SiniestrosViales.Infrastructure/Repositories/SiniestroRepository.cs:27-62 | one loaded incident per page row, in order |
| SiniestroRepositories.ListingProperties | SiniestrosViales.Infrastructure/Repositories/SiniestroRepository.cs:42-60 | every listed incident is stored and satisfies every supplied filter; the page is newest first and no larger than the page size |
| SiniestroRepositories.PageMatchesFilters | SiniestrosViales.Infrastructure/Repositories/SiniestroRepository.cs:42-55 | every listed incident matches the department and the inclusive date range |
| SiniestroRepositories.PageNewestFirst | SiniestrosViales.Infrastructure/Repositories/SiniestroRepository.cs:58 | occurrence instants never increase along a page |
| SiniestroRepositories.Count | SiniestrosViales.Infrastructure/Repositories/SiniestroRepository.cs:64-88 | at most the stored count; zero exactly when nothing matches; everything when no filter is given |
| SiniestroRepositories.FirstPageHoldsAll | SiniestrosViales.Infrastructure/Repositories/SiniestroRepository.cs:27-88 | a first page at least as large as the count holds every matching incident |
| SiniestroRepositories.PageIsSlice | SiniestrosViales.Infrastructure/Repositories/SiniestroRepository.cs:59-60 | page `n` is the slice of the ordered listing from `(n-1)·size` to `n·size` or its end; pages cut from the same ordering tile it |
| Primitives.Wrap32 | SiniestrosViales.Infrastructure/Repositories/SiniestroRepository.cs:59 | unchecked `int` arithmetic leaves a value that fits in 32 bits unchanged |
| Primitives.Wrap32Congruent | SiniestrosViales.Infrastructure/Repositories/SiniestroRepository.cs:59 | the wrapped value differs from the exact one by a whole multiple of 2^32 |
| SiniestroRepositories.OffsetExact | SiniestrosViales.Infrastructure/Repositories/SiniestroRepository.cs:59 | for positive page number and size whose product fits in 32 bits, the offset does not wrap |
| SiniestroRepositories.SiniestroRepository.AddAsync | SiniestrosViales.Infrastructure/Repositories/SiniestroRepository.cs:90-124 | fails, storing nothing, exactly when the rebuilt incident is in the future; otherwise it appends one incident with the input's fields and a fresh identifier different from the input's, appends every input vehicle attached to it, and returns that identifier |
| SiniestroRepositories.AddedIsRetrievable | SiniestrosViales.Infrastructure/Repositories/SiniestroRepository.cs:90-124 | after the add, lookup by the returned identifier yields the stored incident with exactly its vehicles, in insertion order (the model's table order; see Left out) |
| SiniestroRepositories.AppendedIsRetrievable | SiniestrosViales.Infrastructure/Repositories/SiniestroRepository.cs:17-25 | appending an incident with a fresh identifier and rows attached to it makes lookup return exactly those, in appended order (the model's table order; see Left out) |
| Validators.FieldFailures | SiniestrosViales.Application/Validators/CreateSiniestroCommandValidator.cs:41-55 | a field fails `NotEmpty` exactly when blank and `MaximumLength` exactly when a non-null value is too long; both can fail |
| Validators.FieldOf | SiniestrosViales.Application/Validators/CreateSiniestroCommandValidator.cs:41-55 | each vehicle field's failures are keyed on that field of that vehicle |
| Validators.VehiculoFailuresAreItems | SiniestrosViales.Application/Validators/CreateSiniestroCommandValidator.cs:32-33 | every failure of vehicle `i` is keyed on vehicle `i` |
| Validators.Rule | SiniestrosViales.Application/Validators/CreateSiniestroCommandValidator.cs:15-16 | one rule reports its failure exactly when violated, and nothing else |
| Validators.ScalarFailures | SiniestrosViales.Application/Validators/CreateSiniestroCommandValidator.cs:10-30 | the payload-level failures are keyed on payload properties only |
| Validators.PathTextExamples | SiniestrosViales.Application/Validators/CreateSiniestroCommandValidator.cs:32-33 | paths read `Siniestro.FechaHora` and `Siniestro.Vehiculos[i].Tipo` |
| Validators.FechaHoraRequeridaRule | SiniestrosViales.Application/Validators/CreateSiniestroCommandValidator.cs:10-11 | "La fecha y hora es requerida" exactly for the default instant |
| Validators.FechaHoraNoFuturaRule | SiniestrosViales.Application/Validators/CreateSiniestroCommandValidator.cs:12-13 | "no puede ser futura" exactly when the instant is after now |
| Validators.DepartamentoRule | SiniestrosViales.Application/Validators/CreateSiniestroCommandValidator.cs:15-16 | a department failure exactly when its identifier is not positive |
| Validators.CiudadRule | SiniestrosViales.Application/Validators/CreateSiniestroCommandValidator.cs:18-19 | a city failure exactly when its identifier is not positive |
| Validators.TipoSiniestroRule | SiniestrosViales.Application/Validators/CreateSiniestroCommandValidator.cs:21-22 | a type failure exactly when its identifier is not positive |
| Validators.VictimasRule | SiniestrosViales.Application/Validators/CreateSiniestroCommandValidator.cs:24-25 | a victim-count failure exactly when the count is negative |
| Validators.VehiculosListRule | SiniestrosViales.Application/Validators/CreateSiniestroCommandValidator.cs:27-30 | "Al menos un vehículo debe estar involucrado" exactly for an empty list |
| Validators.ScalarRules | SiniestrosViales.Application/Validators/CreateSiniestroCommandValidator.cs:10-30 | each payload-level rule fails exactly when violated, whatever the other fields hold: every violation is reported, not only the first |
| Validators.FieldRules | SiniestrosViales.Application/Validators/CreateSiniestroCommandValidator.cs:41-55 | the two rules on one vehicle field, as seen in the whole payload's result |
| Validators.VehiculoRules | SiniestrosViales.Application/Validators/CreateSiniestroCommandValidator.cs:32-55 | for vehicle `i`, each of the eight rules (blank; longer than 50, 20, 100, 100) fails on `Siniestro.Vehiculos[i].<Field>` exactly when violated |
| Validators.EmptyVehicleListFailsTwice | SiniestrosViales.Application/Validators/CreateSiniestroCommandValidator.cs:27-30 | an otherwise valid payload without vehicles gets exactly two identical failures on `Siniestro.Vehiculos` |
| Validators.VehiculoFailuresEmpty | SiniestrosViales.Application/Validators/CreateSiniestroCommandValidator.cs:39-56 | a vehicle reports nothing exactly when it passes all its rules |
| Validators.ValidExactlyWhenAcceptable | SiniestrosViales.Application/Validators/CreateSiniestroCommandValidator.cs:8-56 | no failure exactly when every rule holds: a fully valid payload is accepted and any violation is reported |
| CreateSiniestroHandlers.FirstVehiculoError | SiniestrosViales.Application/Commands/Siniestros/Handlers/CreateSiniestroCommandHandler.cs:28-37 | no vehicle error exactly when every entry's constructor accepts it; any error is an argument error |
| CreateSiniestroHandlers.FirstVehiculoErrorAt | SiniestrosViales.Application/Commands/Siniestros/Handlers/CreateSiniestroCommandHandler.cs:28-37 | the reported vehicle error is that of the first failing entry |
| CreateSiniestroHandlers.CreateError | SiniestrosViales.Application/Commands/Siniestros/Handlers/CreateSiniestroCommandHandler.cs:18-40 | the request fails exactly when the incident guards fail at now, a vehicle entry is blank, or the occurrence is after the repository's clock reading; a future occurrence is reported first |
| CreateSiniestroHandlers.AgregarVehiculos | SiniestrosViales.Application/Commands/Siniestros/Handlers/CreateSiniestroCommandHandler.cs:28-37 | the loop stops at the first failing entry with its error; otherwise one vehicle per entry, in order, built from it with its own constructor's clock reading as creation instant, with distinct fresh identifiers |
| CreateSiniestroHandlers.BuiltAllStep | SiniestrosViales.Application/Commands/Siniestros/Handlers/CreateSiniestroCommandHandler.cs:30-36 | appending the vehicle built from the next entry keeps the loop's invariant |
| CreateSiniestroHandlers.Handle | SiniestrosViales.Application/Commands/Siniestros/Handlers/CreateSiniestroCommandHandler.cs:18-40 | fails exactly as `CreateError` says, and then stores nothing; otherwise stores one incident carrying the payload's fields and the returned fresh identifier, plus one vehicle per entry, in order, attached to it, created at that entry's clock reading, with distinct identifiers; nothing else changes |
| CreateSiniestroHandlers.StoredRows | SiniestrosViales.Application/Commands/Siniestros/Handlers/CreateSiniestroCommandHandler.cs:36-39 | the rows saved for the built vehicles carry the payload strings, each vehicle's own creation instant and the new incident's identifier |
| CreateSiniestroHandlers.HandleSkipsValidation | SiniestrosViales.Application/Commands/Siniestros/Handlers/CreateSiniestroCommandHandler.cs:18-40 | the handler's own checks pass a payload without vehicles or with a non-positive identifier, although the rules reject it |
| CreateSiniestroHandlers.EmptyPayloadCreated | SiniestrosViales.Application/Commands/Siniestros/Handlers/CreateSiniestroCommandHandler.cs:18-40 | the concrete payload with department, city and type 1 and no vehicles passes the handler, while the rules report the empty vehicle list twice |
| CreateSiniestroHandlers.ValidPayloadCreates | SiniestrosViales.Application/Validators/CreateSiniestroCommandValidator.cs:8-56 | a payload that passes the rules is never rejected by the constructors, and has vehicles and positive identifiers |
| CreateSiniestroHandlers.HandleValidated | SiniestrosViales.Application/Commands/Siniestros/Handlers/CreateSiniestroCommandHandler.cs:18-40 | with the rules run first, every rejected payload gets all its failures and stores nothing; a created incident always has vehicles and positive identifiers |
| SiniestroQueries.CeilDiv | SiniestrosViales.Application/Queries/Siniestros/Handlers/GetSiniestrosQueryHandler.cs:38-44 | the smallest page count that holds every item |
| SiniestroQueries.HasNextExactlyWhenMoreItems | SiniestrosViales.Application/Queries/Siniestros/Handlers/GetSiniestrosQueryHandler.cs:38-44 | `HasNext` holds exactly when the items up to the end of this page are fewer than `TotalCount` |
| SiniestroQueries.TwelveItemsFivePerPage | SiniestrosViales.Application/Queries/Siniestros/Handlers/GetSiniestrosQueryHandler.cs:38-44 | 12 items at 5 per page give 3 pages, a next page and no previous one |
| SiniestroQueries.GetSiniestros | SiniestrosViales.Application/Queries/Siniestros/Handlers/GetSiniestrosQueryHandler.cs:20-45 | filters, page number and size go through unchanged; page number and size are echoed; `TotalCount` is the filtered count; one DTO per page item, in order |
| SiniestroQueries.ListedPage | SiniestrosViales.Application/Queries/Siniestros/Handlers/GetSiniestrosQueryHandler.cs:22-44 | each listed DTO is a stored incident matching the filters; the page is newest first and never holds more than `TotalCount` or the page size |
| SiniestroQueries.LoadedIsShown | SiniestrosViales.Application/Queries/Siniestros/Handlers/GetSiniestroByIdQueryHandler.cs:27 | the DTO of a loaded incident copies its identifier, instant, victim count and description; department, city and type are null exactly when no row has the identifier, and otherwise the first such row's DTO; the vehicles are the attached rows' DTOs, in the table's order (see Left out) |
| SiniestroQueries.ListedItemsShown | SiniestrosViales.Application/Queries/Siniestros/Handlers/GetSiniestrosQueryHandler.cs:22-36 | the listed DTOs are, one for one and in order, the page's incidents projected as `LoadedIsShown` states |
| SiniestroQueries.GetSiniestroById | SiniestrosViales.Application/Queries/Siniestros/Handlers/GetSiniestroByIdQueryHandler.cs:20-28 | null exactly when no incident has the identifier; otherwise the DTO of the first incident with it, projected as `LoadedIsShown` states |
| SiniestroQueries.CreatedIsRetrievable | SiniestrosViales.Application/Commands/Siniestros/Handlers/CreateSiniestroCommandHandler.cs:18-40 | after a create, lookup by the returned identifier gives back the payload's instant, victim count, description and vehicles (in payload order, which is the model's table order; see Left out), and the department, city and type that the payload's identifiers name (null for an identifier no row has) |
| ExceptionHandling.StatusFor | SiniestrosViales.API/Middleware/GlobalExceptionHandlerMiddleware.cs:33-39 | 400 exactly for argument exceptions (null-argument included), 404 exactly for a missing key, 500 exactly for anything else |
| ExceptionHandling.Detail | SiniestrosViales.API/Middleware/GlobalExceptionHandlerMiddleware.cs:41-45 | the message alone exactly when there is no inner exception; otherwise the message, then the fixed "Inner" separator, then the inner message |
| ExceptionHandling.HandleException | SiniestrosViales.API/Middleware/GlobalExceptionHandlerMiddleware.cs:31-56 | the body's status equals the response status; type and title are the fixed constants |
| ExceptionHandling.CreateErrorsAreBadRequest | SiniestrosViales.API/Middleware/GlobalExceptionHandlerMiddleware.cs:33-39 | every error the create handler raises reaches the client as 400 with its message as detail |
| ExceptionHandling.FutureOccurrenceResponse | SiniestrosViales.API/Middleware/GlobalExceptionHandlerMiddleware.cs:31-53 | a future occurrence is answered 400 with "La fecha y hora no puede ser futura (Parameter 'fechaHora')" |
| ExceptionHandling.StatusExamples | SiniestrosViales.API/Middleware/GlobalExceptionHandlerMiddleware.cs:33-45 | a null vehicle gives 400, a missing key 404, a wrapped failure of another class 500 with both messages |

## Left out

- Async execution, `CancellationToken`, Entity Framework change tracking and the transactions of
  `SaveChangesAsync`. The two saves of `AddAsync` always succeed in the model. A failure of either
  save, including the foreign-key rejection below and a failure between them (an incident saved
  without its vehicles), is not modelled.
- Foreign keys. SQL Server (`SiniestrosViales.API/Program.cs:47`) enforces the required keys on
  department, city and type (`SiniestroConfiguration.cs:27-31`, `:37-41`, `:47-51`). Catalog
  identifiers are generated by the database (`DepartamentoConfiguration.cs:16`), so 0 names no
  row. An identifier that names no row makes the first save of `AddAsync`
  (`SiniestroRepository.cs:111`) throw `DbUpdateException`, which the middleware answers with 500.
  The model stores such an incident and loads null for the missing row.
- Logging, JSON serialisation and writing the response in the middleware. The content type is
  not modelled either.
- Controllers, routing, `Program.cs` wiring, and the catalog query handlers. Those handlers only
  pass the repository result through the mapper.
- The `Departamento` → `Ciudades` navigation collection beyond its initial emptiness, and the
  EF schema configuration.
- Common.Entity.constructor: one `now` stands for both the field initialiser's clock reading and
  the constructor guard's reading, which in .NET are two readings a moment apart.
- Siniestros.Siniestro.Create: only `ArgumentException` is modelled. A null `Vehiculos` list in
  the payload, or a null entry in it, makes the handler's loop
  (`CreateSiniestroCommandHandler.cs:28-34`) throw `NullReferenceException`, answered with 500
  (`GlobalExceptionHandlerMiddleware.cs:38`). Both are outside the model, because the payload's
  list is a sequence of entries.
- SiniestroQueries.CeilDiv: the `PagedResult` class is not part of this model. `TotalPages` is
  defined as the ceiling of `TotalCount / PageSize` for a positive page size and as 0 otherwise,
  because the result for a non-positive size is not known.
- SiniestroRepositories.Count: the count is an unbounded natural number, not a 32-bit `int`.
- SiniestroRepositories.PageRows, SiniestroRepositories.GetWithFilters, SiniestroQueries.GetSiniestros:
  `Skip`/`Take` follow LINQ-to-objects, so a negative offset skips nothing and a non-positive page
  size gives an empty page (with `TotalPages` 0). On SQL Server (`Program.cs:47`) the query
  becomes `OFFSET … ROWS FETCH NEXT … ROWS ONLY` (`SiniestroRepository.cs:59-60`), which rejects
  a negative offset and a fetch count below 1. The controller accepts any `pageNumber` and
  `pageSize` (`SiniestrosController.cs:50-51`), so `pageNumber` 0 (or a wrapped negative offset)
  or `pageSize` 0 or less makes `GetWithFiltersAsync`, called first
  (`GetSiniestrosQueryHandler.cs:22`), throw, and the middleware answers 500
  (`GlobalExceptionHandlerMiddleware.cs:38`). The model does not capture that rejection.
- SiniestroRepositories.Load: the vehicles are returned in the order of the model's vehicle table,
  which is insertion order. `.Include(s => s.Vehiculos)` (`SiniestroRepository.cs:23`) sets no
  order, and on SQL Server, with random `Guid` keys, the collection comes back in no guaranteed
  order. So the "in order" parts of SiniestroRepositories.AddedIsRetrievable,
  SiniestroRepositories.AppendedIsRetrievable, SiniestroQueries.LoadedIsShown and
  SiniestroQueries.CreatedIsRetrievable hold for the model's table order only. What the database
  does guarantee is the same vehicles, each as often as stored (the multiset clause of
  SiniestroRepositories.AttachedTo).
- Linq.OrderByDescending: the definition fixes one order for incidents with equal `FechaHora`
  (their stored order), the same for every request. SQL Server's `ORDER BY FechaHora DESC` fixes
  none, and two page requests may order such incidents differently. The contract promises only
  sortedness and permutation.
- SiniestroRepositories.PageIsSlice: the tiling of consecutive pages holds only when all pages
  are cut from one ordering. On the database it is certain only when the `FechaHora` values are
  distinct; otherwise a paged listing may repeat or skip incidents that share an instant.
- Dtos.ToDto: the AutoMapper configuration (`MappingProfile.cs`) is not part of this model. The
  projection copies the fields one by one and gives null for a lookup row that is missing.
- Validators.FechaHoraNoFuturaRule: the validator's clock reading is the same `now` as the
  constructor's.
- The vehicles' `FechaModificacion` is not modelled, because nothing ever sets it.

## Findings

| source | as written | input that shows it | evidently intended | confidence | as-written member | corrected member |
|---|---|---|---|---|---|---|
| SiniestrosViales.Application/Commands/Siniestros/Handlers/CreateSiniestroCommandHandler.cs:18-40 | The validator is registered (`Program.cs`: `AddValidatorsFromAssembly`), but no pipeline step or controller ever runs it. It also targets `CreateSiniestroCommand`, while the controller binds `CreateSiniestroDto` and sends the command directly. The handler therefore creates any payload its constructors accept. | A payload dated in the past, with department, city and type identifiers of existing rows, 0 victims and an empty vehicle list: the incident is created without vehicles, although the rules report the vehicle list twice. (Identifiers 0 would also pass the handler, but the database's foreign keys then reject the save with 500, not 400.) | The payload rules run before the handler, and a rejected payload gets its failures and stores nothing | not executed | CreateSiniestroHandlers.HandleSkipsValidation, CreateSiniestroHandlers.EmptyPayloadCreated | CreateSiniestroHandlers.HandleValidated, CreateSiniestroHandlers.ValidPayloadCreates |

=== FILE: catalogo_repository.dfy ===
/** `CatalogoRepository`: the read-only "active" views of the three lookup tables. Each read
    filters the stored rows and leaves them as they are; an inactive row is left out of the
    result, never removed from the table. */
module CatalogoRepositories {
  import opened Wrappers
  import opened Linq
  import opened Catalogos

  /** `GetTiposSiniestroActivosAsync`: the stored types whose flag is set, in table order. */
  function TiposSiniestroActivos(tabla: seq<TipoSiniestroRow>): (r: seq<TipoSiniestroRow>)
    ensures forall k :: k in r <==> k in tabla && k.activo
    ensures forall k :: k in tabla && k.activo ==> multiset(r)[k] == multiset(tabla)[k]
  {
    WhereMultiset(tabla, (k: TipoSiniestroRow) => k.activo);
    Where(tabla, (k: TipoSiniestroRow) => k.activo)
  }

  /** `GetDepartamentosActivosAsync`: the stored departments whose flag is set, in table order. */
  function DepartamentosActivos(tabla: seq<DepartamentoRow>): (r: seq<DepartamentoRow>)
    ensures forall d :: d in r <==> d in tabla && d.activo
    ensures forall d :: d in tabla && d.activo ==> multiset(r)[d] == multiset(tabla)[d]
  {
    WhereMultiset(tabla, (d: DepartamentoRow) => d.activo);
    Where(tabla, (d: DepartamentoRow) => d.activo)
  }

  predicate Activa(c: CiudadRow)
  {
    c.activo
  }

  function DelDepartamento(departamentoId: int): CiudadRow -> bool
  {
    (c: CiudadRow) => c.departamentoId == departamentoId
  }

  /** `GetCiudadesActivasAsync`: the stored cities whose flag is set, narrowed to department
      `departamentoId` when one is given. */
  function CiudadesActivas(tabla: seq<CiudadRow>, departamentoId: Option<int>): (r: seq<CiudadRow>)
    ensures forall c :: c in r <==> c in tabla && c.activo
                                    && (departamentoId.None? || c.departamentoId == departamentoId.value)
  {
    var activas := Where(tabla, Activa);
    if departamentoId.Some? then
      Where(activas, DelDepartamento(departamentoId.value))
    else
      activas
  }

  /** The department filter applied after the active filter selects the same cities, in the same
      order, as a single filter testing both; without a department every active city is listed. */
  lemma CiudadesActivasIsOneFilter(tabla: seq<CiudadRow>, departamentoId: Option<int>)
    ensures departamentoId.Some? ==>
      CiudadesActivas(tabla, departamentoId)
        == Where(tabla, (c: CiudadRow) => c.activo && c.departamentoId == departamentoId.value)
    ensures departamentoId.None? ==> CiudadesActivas(tabla, departamentoId) == Where(tabla, Activa)
  {
    if departamentoId.Some? {
      WhereWhere(tabla, Activa, DelDepartamento(departamentoId.value),
                 (c: CiudadRow) => c.activo && c.departamentoId == departamentoId.value);
    }
  }

  /** Deactivating the department stored at position `i` (through `Departamento.Desactivar`) drops
      it from the active listing when identifiers are unique, and leaves the table's length and
      every other row unchanged; the other active departments are still listed. */
  lemma {:induction false} DesactivarHidesDepartamento(tabla: seq<DepartamentoRow>, i: nat)
    requires i < |tabla|
    requires forall j, k :: 0 <= j < k < |tabla| ==> tabla[j].id != tabla[k].id
    ensures var tabla' := tabla[i := tabla[i].(activo := false)];
            && |tabla'| == |tabla|
            && (forall d :: d in DepartamentosActivos(tabla') ==> d.id != tabla[i].id)
            && (forall j :: 0 <= j < |tabla| && j != i && tabla[j].activo ==> tabla[j] in DepartamentosActivos(tabla'))
  {
    var tabla' := tabla[i := tabla[i].(activo := false)];
    forall d | d in DepartamentosActivos(tabla') ensures d.id != tabla[i].id {
      var j :| 0 <= j < |tabla'| && tabla'[j] == d;
      if j != i {
        assert d == tabla[j];
      }
    }
    forall j | 0 <= j < |tabla| && j != i && tabla[j].activo ensures tabla[j] in DepartamentosActivos(tabla') {
      assert tabla'[j] == tabla[j];
    }
  }

  /** The same for an incident type deactivated through `TipoSiniestro.Desactivar`. */
  lemma {:induction false} DesactivarHidesTipoSiniestro(tabla: seq<TipoSiniestroRow>, i: nat)
    requires i < |tabla|
    requires forall j, k :: 0 <= j < k < |tabla| ==> tabla[j].id != tabla[k].id
    ensures var tabla' := tabla[i := tabla[i].(activo := false)];
            && |tabla'| == |tabla|
            && (forall k :: k in TiposSiniestroActivos(tabla') ==> k.id != tabla[i].id)
            && (forall j :: 0 <= j < |tabla| && j != i && tabla[j].activo ==> tabla[j] in TiposSiniestroActivos(tabla'))
  {
    var tabla' := tabla[i := tabla[i].(activo := false)];
    forall k | k in TiposSiniestroActivos(tabla') ensures k.id != tabla[i].id {
      var j :| 0 <= j < |tabla'| && tabla'[j] == k;
      if j != i {
        assert k == tabla[j];
      }
    }
    forall j | 0 <= j < |tabla| && j != i && tabla[j].activo ensures tabla[j] in TiposSiniestroActivos(tabla') {
      assert tabla'[j] == tabla[j];
    }
  }

  /** The same for a city deactivated through `Ciudad.Desactivar`, with or without the department
      filter: the city leaves every listing, and every other active city of the department is
      still listed. */
  lemma {:induction false} DesactivarHidesCiudad(tabla: seq<CiudadRow>, i: nat, departamentoId: Option<int>)
    requires i < |tabla|
    requires forall j, k :: 0 <= j < k < |tabla| ==> tabla[j].id != tabla[k].id
    ensures var tabla' := tabla[i := tabla[i].(activo := false)];
            && |tabla'| == |tabla|
            && (forall c :: c in CiudadesActivas(tabla', departamentoId) ==> c.id != tabla[i].id)
            && (forall j :: 0 <= j < |tabla| && j != i && tabla[j].activo
                            && (departamentoId.None? || tabla[j].departamentoId == departamentoId.value)
                            ==> tabla[j] in CiudadesActivas(tabla', departamentoId))
  {
    var tabla' := tabla[i := tabla[i].(activo := false)];
    forall c | c in CiudadesActivas(tabla', departamentoId) ensures c.id != tabla[i].id {
      var j :| 0 <= j < |tabla'| && tabla'[j] == c;
      if j != i {
        assert c == tabla[j];
      }
    }
    forall j | 0 <= j < |tabla| && j != i && tabla[j].activo
                 && (departamentoId.None? || tabla[j].departamentoId == departamentoId.value)
      ensures tabla[j] in CiudadesActivas(tabla', departamentoId)
    {
      assert tabla'[j] == tabla[j];
    }
  }
}

=== FILE: catalogos.dfy ===
/** The lookup entities (`Departamento`, `Ciudad`, `TipoSiniestro`): named rows with an
    active flag that only `Activar` and `Desactivar` change. Each class also gives the row it
    persists as, which the catalog queries read. */
module Catalogos {
  import opened Wrappers
  import opened Primitives

  datatype DepartamentoRow = DepartamentoRow(
    id: int, nombre: string, codigoDane: NullableString, activo: bool,
    fechaCreacion: DateTime, fechaModificacion: Option<DateTime>)

  datatype CiudadRow = CiudadRow(
    id: int, nombre: string, departamentoId: int, codigoDane: NullableString, activo: bool,
    fechaCreacion: DateTime, fechaModificacion: Option<DateTime>)

  datatype TipoSiniestroRow = TipoSiniestroRow(
    id: int, nombre: string, descripcion: NullableString, activo: bool,
    fechaCreacion: DateTime, fechaModificacion: Option<DateTime>)

  class Departamento {
    /** The store assigns the identifier on insert; until then it is 0. */
    var Id: int
    var FechaCreacion: DateTime
    var FechaModificacion: Option<DateTime>
    var Nombre: string
    var CodigoDane: NullableString
    var Activo: bool
    var Ciudades: seq<Ciudad>

    function Row(): DepartamentoRow
      reads this
    {
      DepartamentoRow(Id, Nombre, CodigoDane, Activo, FechaCreacion, FechaModificacion)
    }

    constructor (nombre: string, codigoDane: NullableString, now: DateTime)
      ensures Row() == DepartamentoRow(0, nombre, codigoDane, true, now, None)
      ensures Ciudades == []
    {
      Id := 0;
      FechaCreacion := now;
      FechaModificacion := None;
      Nombre := nombre;
      CodigoDane := codigoDane;
      Activo := true;
      Ciudades := [];
    }

    /** Clears the flag and nothing else; on an inactive department it changes nothing. */
    method Desactivar()
      modifies this`Activo
      ensures Row() == old(Row()).(activo := false)
      ensures !old(Activo) ==> Row() == old(Row())
    {
      Activo := false;
    }

    /** Sets the flag and nothing else; on an active department it changes nothing. */
    method Activar()
      modifies this`Activo
      ensures Row() == old(Row()).(activo := true)
      ensures old(Activo) ==> Row() == old(Row())
    {
      Activo := true;
    }
  }

  class Ciudad {
    var Id: int
    var FechaCreacion: DateTime
    var FechaModificacion: Option<DateTime>
    var Nombre: string
    var DepartamentoId: int
    var CodigoDane: NullableString
    var Activo: bool

    function Row(): CiudadRow
      reads this
    {
      CiudadRow(Id, Nombre, DepartamentoId, CodigoDane, Activo, FechaCreacion, FechaModificacion)
    }

    constructor (nombre: string, departamentoId: int, codigoDane: NullableString, now: DateTime)
      ensures Row() == CiudadRow(0, nombre, departamentoId, codigoDane, true, now, None)
    {
      Id := 0;
      FechaCreacion := now;
      FechaModificacion := None;
      Nombre := nombre;
      DepartamentoId := departamentoId;
      CodigoDane := codigoDane;
      Activo := true;
    }

    /** Clears the flag and nothing else; on an inactive city it changes nothing. */
    method Desactivar()
      modifies this`Activo
      ensures Row() == old(Row()).(activo := false)
      ensures !old(Activo) ==> Row() == old(Row())
    {
      Activo := false;
    }

    /** Sets the flag and nothing else; on an active city it changes nothing. */
    method Activar()
      modifies this`Activo
      ensures Row() == old(Row()).(activo := true)
      ensures old(Activo) ==> Row() == old(Row())
    {
      Activo := true;
    }
  }

  class TipoSiniestro {
    var Id: int
    var FechaCreacion: DateTime
    var FechaModificacion: Option<DateTime>
    var Nombre: string
    var Descripcion: NullableString
    var Activo: bool

    function Row(): TipoSiniestroRow
      reads this
    {
      TipoSiniestroRow(Id, Nombre, Descripcion, Activo, FechaCreacion, FechaModificacion)
    }

    constructor (nombre: string, descripcion: NullableString, now: DateTime)
      ensures Row() == TipoSiniestroRow(0, nombre, descripcion, true, now, None)
    {
      Id := 0;
      FechaCreacion := now;
      FechaModificacion := None;
      Nombre := nombre;
      Descripcion := descripcion;
      Activo := true;
    }

    /** Clears the flag and nothing else; on an inactive type it changes nothing. */
    method Desactivar()
      modifies this`Activo
      ensures Row() == old(Row()).(activo := false)
      ensures !old(Activo) ==> Row() == old(Row())
    {
      Activo := false;
    }

    /** Sets the flag and nothing else; on an active type it changes nothing. */
    method Activar()
      modifies this`Activo
      ensures Row() == old(Row()).(activo := true)
      ensures old(Activo) ==> Row() == old(Row())
    {
      Activo := true;
    }
  }
}

=== FILE: create_handler.dfy ===
/** `CreateSiniestroCommandHandler.Handle`: builds the incident from the payload, builds and
    attaches one vehicle per payload entry, in order, and hands the aggregate to
    `SiniestroRepository.AddAsync` once, returning the identifier it yields. Any constructor that
    throws ends the request before the repository is called. The clock is read several times:
    the incident's constructor reads it at `now`, each vehicle's constructor reads it once more
    (`relojes[i]` for entry `i`), and `AddAsync`, which rebuilds the incident, reads it again at
    `later`. The model places no order on these readings. */
module CreateSiniestroHandlers {
  import opened Wrappers
  import opened Primitives
  import opened Errors
  import opened Vehiculos
  import opened Siniestros
  import opened Store
  import opened SiniestroRepositories
  import opened Dtos
  import V = Validators

  /** What the vehicle constructor throws for payload entry `v`, if anything. */
  function EntryError(v: VehiculoInvolucradoDto): Option<Exception>
  {
    Check(v.tipo, v.placa, v.marca, v.modelo)
  }

  /** The error of the first payload entry whose vehicle constructor throws. */
  function FirstVehiculoError(vs: seq<VehiculoInvolucradoDto>): (r: Option<Exception>)
    ensures r.None? <==> forall i :: 0 <= i < |vs| ==> EntryError(vs[i]).None?
    ensures r.Some? ==> r.value.kind == Argument && r.value.inner.None?
  {
    if vs == [] then None
    else if EntryError(vs[0]).Some? then EntryError(vs[0])
    else
      var rest := FirstVehiculoError(vs[1..]);
      assert rest.None? <==> forall i :: 1 <= i < |vs| ==> EntryError(vs[i]).None? by {
        assert forall i :: 1 <= i < |vs| ==> vs[i] == vs[1..][i - 1];
      }
      rest
  }

  /** When entry `i` is the first that fails, its error is the one reported. */
  lemma {:induction false} FirstVehiculoErrorAt(vs: seq<VehiculoInvolucradoDto>, i: nat)
    requires i < |vs| && EntryError(vs[i]).Some?
    requires forall j :: 0 <= j < i ==> EntryError(vs[j]).None?
    ensures FirstVehiculoError(vs) == EntryError(vs[i])
  {
    if i > 0 {
      assert vs[1..][i - 1] == vs[i];
      FirstVehiculoErrorAt(vs[1..], i - 1);
    }
  }

  /** What `Handle` throws, if anything: the incident constructor's guards at `now`, then the
      first failing vehicle entry, then the rebuild inside `AddAsync` at `later`. */
  function CreateError(dto: CreateSiniestroDto, now: DateTime, later: DateTime): (r: Option<Exception>)
    ensures r.None? <==> && dto.fechaHora <= now && dto.fechaHora <= later && dto.numeroVictimas >= 0
                         && forall i :: 0 <= i < |dto.vehiculos| ==> EntryError(dto.vehiculos[i]).None?
    ensures dto.fechaHora > now ==> r == Some(ArgumentError(FechaFutura, "fechaHora"))
    ensures r.Some? ==> r.value.kind == Argument && r.value.inner.None?
  {
    var e := ConstructorError(dto.fechaHora, dto.numeroVictimas, now);
    if e.Some? then e
    else
      var ve := FirstVehiculoError(dto.vehiculos);
      if ve.Some? then ve
      else ConstructorError(dto.fechaHora, dto.numeroVictimas, later)
  }

  /** Vehicle `v` was built from payload entry `d` by a constructor that read the clock at `at`. */
  ghost predicate BuiltFrom(v: VehiculoInvolucrado, d: VehiculoInvolucradoDto, at: DateTime)
  {
    && d.tipo == Some(v.tipo) && d.placa == Some(v.placa) && d.marca == Some(v.marca) && d.modelo == Some(v.modelo)
    && v.fechaCreacion == at && v.id != EmptyGuid
  }

  /** The stored row of payload entry `d`, built at `at` and attached to incident `siniestroId`. */
  ghost predicate StoredFrom(row: VehiculoRow, d: VehiculoInvolucradoDto, siniestroId: Guid, at: DateTime)
  {
    && row.siniestroId == siniestroId
    && d.tipo == Some(row.tipo) && d.placa == Some(row.placa) && d.marca == Some(row.marca) && d.modelo == Some(row.modelo)
    && row.fechaCreacion == at && row.id != EmptyGuid
  }

  /** The incident row `Handle` stores for `dto` under identifier `id`. */
  function RowFor(dto: CreateSiniestroDto, id: Guid, later: DateTime): SiniestroRow
  {
    SiniestroRow(id, dto.fechaHora, dto.departamentoId, dto.ciudadId, dto.tipoSiniestroId,
                 dto.numeroVictimas, dto.descripcion, later, None)
  }

  /** `built` holds one vehicle per entry of `entradas`, in order, each built from its entry at
      its own clock reading in `relojes`, with distinct identifiers drawn after `before` and
      recorded in `issued`. */
  ghost predicate BuiltAll(built: seq<VehiculoInvolucrado>, entradas: seq<VehiculoInvolucradoDto>, relojes: seq<DateTime>,
                           before: set<Guid>, issued: set<Guid>)
  {
    && |built| == |entradas| == |relojes|
    && (forall j :: 0 <= j < |entradas| ==> BuiltFrom(built[j], entradas[j], relojes[j]))
    && (forall j :: 0 <= j < |entradas| ==> built[j].id in issued && built[j].id !in before)
    && (forall j, k :: 0 <= j < k < |entradas| ==> built[j].id != built[k].id)
  }

  /** Appending the vehicle built from the next entry, under an identifier drawn just now, keeps
      `BuiltAll`. */
  lemma BuiltAllStep(built: seq<VehiculoInvolucrado>, entradas: seq<VehiculoInvolucradoDto>, relojes: seq<DateTime>,
                     i: nat, before: set<Guid>, issued: set<Guid>, v: VehiculoInvolucrado)
    requires i < |entradas| == |relojes| && BuiltAll(built, entradas[..i], relojes[..i], before, issued)
    requires BuiltFrom(v, entradas[i], relojes[i]) && v.id !in issued && before <= issued
    ensures BuiltAll(built + [v], entradas[..i + 1], relojes[..i + 1], before, issued + {v.id})
  {
    assert entradas[..i + 1] == entradas[..i] + [entradas[i]];
    assert relojes[..i + 1] == relojes[..i] + [relojes[i]];
  }

  /** The handler's `foreach` over the payload's vehicles: each entry draws an identifier, is built
      with creation instant `relojes[i]` (its constructor's own clock reading) and is appended to
      `s`; the first entry whose constructor throws ends the loop with that error. On success `s`
      holds one vehicle per entry, in order, with distinct identifiers none of which had been
      drawn before. */
  method AgregarVehiculos(s: Siniestro, entradas: seq<VehiculoInvolucradoDto>, relojes: seq<DateTime>, oracle: GuidOracle)
    returns (r: Outcome<Exception>)
    requires s.Valid() && oracle.Valid() && s.Vehiculos == [] && |relojes| == |entradas|
    modifies s`Vehiculos, oracle
    ensures s.Valid() && oracle.Valid() && old(oracle.issued) <= oracle.issued
    ensures r.Fail? <==> FirstVehiculoError(entradas).Some?
    ensures r.Fail? ==> r.error == FirstVehiculoError(entradas).value
    ensures r.Pass? ==> BuiltAll(s.Vehiculos, entradas, relojes, old(oracle.issued), oracle.issued)
  {
    var i := 0;
    while i < |entradas|
      invariant 0 <= i <= |entradas|
      invariant oracle.Valid() && s.Valid() && old(oracle.issued) <= oracle.issued
      invariant forall j :: 0 <= j < i ==> EntryError(entradas[j]).None?
      invariant BuiltAll(s.Vehiculos, entradas[..i], relojes[..i], old(oracle.issued), oracle.issued)
    {
      var entrada := entradas[i];
      ghost var issuedNow := oracle.issued;
      var id := oracle.NewGuid();
      var vehiculo := NewVehiculo(id, relojes[i], entrada.tipo, entrada.placa, entrada.marca, entrada.modelo);
      if vehiculo.Failure? {
        FirstVehiculoErrorAt(entradas, i);
        return Fail(vehiculo.error);
      }
      BuiltAllStep(s.Vehiculos, entradas, relojes, i, old(oracle.issued), issuedNow, vehiculo.value);
      var _ := s.AgregarVehiculo(Some(vehiculo.value));
      i := i + 1;
    }
    assert entradas[..i] == entradas && relojes[..i] == relojes;
    r := Pass;
  }

  /** `Handle`: on success the store holds one more incident, carrying the payload's fields and the
      returned identifier, and one more vehicle per payload entry, in order, each attached to that
      identifier, created at its own clock reading and with pairwise distinct identifiers; on
      failure the store is unchanged. */
  method Handle(dto: CreateSiniestroDto, repo: SiniestroRepository, oracle: GuidOracle,
                now: DateTime, relojes: seq<DateTime>, later: DateTime)
    returns (r: Result<Guid, Exception>)
    requires oracle.Valid() && |relojes| == |dto.vehiculos|
    modifies repo`tables, oracle
    ensures oracle.Valid()
    ensures r.Failure? <==> CreateError(dto, now, later).Some?
    ensures r.Failure? ==> r.error == CreateError(dto, now, later).value && repo.tables == old(repo.tables)
    ensures r.Success? ==>
      var n := |old(repo.tables.vehiculos)|;
      var vs := repo.tables.vehiculos;
      && r.value != EmptyGuid && r.value !in old(oracle.issued)
      && repo.tables.siniestros == old(repo.tables.siniestros) + [RowFor(dto, r.value, later)]
      && |vs| == n + |dto.vehiculos| && vs[..n] == old(repo.tables.vehiculos)
      && (forall i :: 0 <= i < |dto.vehiculos| ==> StoredFrom(vs[n + i], dto.vehiculos[i], r.value, relojes[i]))
      && (forall i, j :: n <= i < j < |vs| ==> vs[i].id != vs[j].id)
      && (forall i :: n <= i < |vs| ==> vs[i].id != r.value && vs[i].id !in old(oracle.issued))
      && repo.tables.(siniestros := old(repo.tables.siniestros), vehiculos := old(repo.tables.vehiculos)) == old(repo.tables)
  {
    var creado := Siniestro.Create(dto.fechaHora, dto.departamentoId, dto.ciudadId, dto.tipoSiniestroId,
                                   dto.numeroVictimas, dto.descripcion, oracle, now);
    if creado.Failure? {
      return Failure(creado.error);
    }
    var siniestro := creado.value;
    ghost var afterCreate := oracle.issued;
    var agregados := AgregarVehiculos(siniestro, dto.vehiculos, relojes, oracle);
    if agregados.Fail? {
      return Failure(agregados.error);
    }
    ghost var issuedBeforeAdd := oracle.issued;
    r := repo.AddAsync(siniestro, oracle, later);
    if r.Success? {
      StoredRows(siniestro.Vehiculos, dto.vehiculos, relojes, r.value, afterCreate, issuedBeforeAdd);
    }
  }

  /** The rows saved for the vehicles built from the payload carry the payload's strings, are
      attached to the new incident and keep the vehicles' distinct, freshly drawn identifiers. */
  lemma StoredRows(built: seq<VehiculoInvolucrado>, dtos: seq<VehiculoInvolucradoDto>, relojes: seq<DateTime>, id: Guid,
                   issuedBefore: set<Guid>, issued: set<Guid>)
    requires BuiltAll(built, dtos, relojes, issuedBefore, issued) && id !in issued
    ensures var rows := VehiculoRows(built, id);
      && |rows| == |dtos|
      && (forall i :: 0 <= i < |dtos| ==> StoredFrom(rows[i], dtos[i], id, relojes[i]))
      && (forall i, j :: 0 <= i < j < |rows| ==> rows[i].id != rows[j].id)
      && (forall i :: 0 <= i < |rows| ==> rows[i].id != id && rows[i].id !in issuedBefore)
  {
  }

  /** As written, nothing runs the payload rules before `Handle`: a payload with no vehicles, or
      with a non-positive department, city or type identifier, passes the constructors although
      the rules reject it. (A relational store with enforced foreign keys would still refuse the
      non-positive identifiers at the first save; that check is not part of this model, so the
      case that reaches the store is the empty vehicle list.) */
  lemma {:induction false} HandleSkipsValidation(dto: CreateSiniestroDto, now: DateTime, later: DateTime)
    requires dto.fechaHora <= now && dto.fechaHora <= later && dto.numeroVictimas >= 0
    requires forall i :: 0 <= i < |dto.vehiculos| ==> EntryError(dto.vehiculos[i]).None?
    requires |dto.vehiculos| == 0 || dto.departamentoId <= 0 || dto.ciudadId <= 0 || dto.tipoSiniestroId <= 0
    ensures CreateError(dto, now, later).None?
    ensures V.Validate(dto, now) != []
  {
    V.ScalarRules(dto, now);
  }

  /** A concrete payload that shows it: department, city and type 1 (rows that exist), no
      victims, and no vehicles. The handler creates it; the rules report the empty vehicle list,
      once for each of its two rules. */
  lemma EmptyPayloadCreated()
    ensures var dto := CreateSiniestroDto(5, 1, 1, 1, 0, None, []);
            && CreateError(dto, 10, 10).None?
            && V.Validate(dto, 10) == [
                 V.ValidationFailure(V.Property(V.Vehiculos), V.AlMenosUnVehiculo),
                 V.ValidationFailure(V.Property(V.Vehiculos), V.AlMenosUnVehiculo)]
  {
  }

  /** Why a create request fails once the rules run first: the rules' failures, or an exception. */
  datatype CreateFailure = Invalid(failures: seq<V.ValidationFailure>) | Thrown(exception: Exception)

  /** A payload that passes the rules at `now` is never rejected by the constructors at `now`,
      nor by the rebuild at any `later` instant. */
  lemma ValidPayloadCreates(dto: CreateSiniestroDto, now: DateTime, later: DateTime)
    requires V.Validate(dto, now) == [] && now <= later
    ensures CreateError(dto, now, later).None?
    ensures |dto.vehiculos| > 0 && dto.departamentoId > 0 && dto.ciudadId > 0 && dto.tipoSiniestroId > 0
  {
    V.ValidExactlyWhenAcceptable(dto, now);
    forall i | 0 <= i < |dto.vehiculos| ensures EntryError(dto.vehiculos[i]).None? {
      assert V.VehiculoAcceptable(dto.vehiculos[i]);
    }
  }

  /** The create request with the payload rules run first, as the validator's registration
      intends: a payload with any failure is answered with all of them and stores nothing;
      otherwise `Handle` runs. */
  method HandleValidated(dto: CreateSiniestroDto, repo: SiniestroRepository, oracle: GuidOracle,
                         now: DateTime, relojes: seq<DateTime>, later: DateTime)
    returns (r: Result<Guid, CreateFailure>)
    requires oracle.Valid() && |relojes| == |dto.vehiculos|
    modifies repo`tables, oracle
    ensures oracle.Valid()
    ensures r.Failure? && r.error.Invalid? <==> V.Validate(dto, now) != []
    ensures r.Failure? && r.error.Invalid? ==> r.error.failures == V.Validate(dto, now) && repo.tables == old(repo.tables)
    ensures now <= later ==> !(r.Failure? && r.error.Thrown?)
    ensures r.Success? ==>
      && |dto.vehiculos| > 0 && dto.departamentoId > 0 && dto.ciudadId > 0 && dto.tipoSiniestroId > 0
      && r.value != EmptyGuid && r.value !in old(oracle.issued)
      && repo.tables.siniestros == old(repo.tables.siniestros) + [RowFor(dto, r.value, later)]
      && |repo.tables.vehiculos| == |old(repo.tables.vehiculos)| + |dto.vehiculos|
  {
    var failures := V.Validate(dto, now);
    if failures != [] {
      return Failure(Invalid(failures));
    }
    V.ValidExactlyWhenAcceptable(dto, now);
    if now <= later {
      ValidPayloadCreates(dto, now, later);
    }
    var creado := Handle(dto, repo, oracle, now, relojes, later);
    if creado.Failure? {
      return Failure(Thrown(creado.error));
    }
    r := Success(creado.value);
  }
}

=== FILE: dtos.dfy ===
/** The application layer's data shapes (`CreateSiniestroDto`, `SiniestroDto` and the lookup
    DTOs) and the projection of loaded rows onto them, a plain field copy. */
module Dtos {
  import opened Wrappers
  import opened Primitives
  import opened Catalogos
  import opened Store
  import opened SiniestroRepositories

  /** A vehicle as the client sends it, and as a listed incident returns it. The declared type is
      a non-nullable string defaulting to "", but a payload may still carry null. */
  datatype VehiculoInvolucradoDto = VehiculoInvolucradoDto(
    tipo: NullableString, placa: NullableString, marca: NullableString, modelo: NullableString)

  /** The create payload; an omitted `FechaHora` is `default(DateTime)`. */
  datatype CreateSiniestroDto = CreateSiniestroDto(
    fechaHora: DateTime, departamentoId: int, ciudadId: int, tipoSiniestroId: int,
    numeroVictimas: int, descripcion: NullableString, vehiculos: seq<VehiculoInvolucradoDto>)

  datatype DepartamentoDto = DepartamentoDto(id: int, nombre: string, codigoDane: NullableString)

  datatype CiudadDto = CiudadDto(id: int, nombre: string, codigoDane: NullableString)

  datatype TipoSiniestroDto = TipoSiniestroDto(id: int, nombre: string, descripcion: NullableString)

  /** An incident as the queries return it; a lookup whose row is missing maps to null. */
  datatype SiniestroDto = SiniestroDto(
    id: Guid, fechaHora: DateTime,
    departamento: Option<DepartamentoDto>, ciudad: Option<CiudadDto>, tipoSiniestro: Option<TipoSiniestroDto>,
    numeroVictimas: int, descripcion: NullableString, vehiculos: seq<VehiculoInvolucradoDto>)

  function DepartamentoDtoOf(d: DepartamentoRow): DepartamentoDto
  {
    DepartamentoDto(d.id, d.nombre, d.codigoDane)
  }

  function CiudadDtoOf(c: CiudadRow): CiudadDto
  {
    CiudadDto(c.id, c.nombre, c.codigoDane)
  }

  function TipoSiniestroDtoOf(k: TipoSiniestroRow): TipoSiniestroDto
  {
    TipoSiniestroDto(k.id, k.nombre, k.descripcion)
  }

  function VehiculoDtoOf(v: VehiculoRow): VehiculoInvolucradoDto
  {
    VehiculoInvolucradoDto(Some(v.tipo), Some(v.placa), Some(v.marca), Some(v.modelo))
  }

  function VehiculoDtos(vs: seq<VehiculoRow>): (r: seq<VehiculoInvolucradoDto>)
    ensures |r| == |vs| && forall i :: 0 <= i < |vs| ==> r[i] == VehiculoDtoOf(vs[i])
  {
    seq(|vs|, i requires 0 <= i < |vs| => VehiculoDtoOf(vs[i]))
  }

  /** The `Siniestro -> SiniestroDto` map: every scalar field copied, each loaded lookup and
      vehicle projected. */
  function ToDto(l: Loaded): SiniestroDto
  {
    SiniestroDto(
      l.siniestro.id, l.siniestro.fechaHora,
      if l.departamento.Some? then Some(DepartamentoDtoOf(l.departamento.value)) else None,
      if l.ciudad.Some? then Some(CiudadDtoOf(l.ciudad.value)) else None,
      if l.tipoSiniestro.Some? then Some(TipoSiniestroDtoOf(l.tipoSiniestro.value)) else None,
      l.siniestro.numeroVictimas, l.siniestro.descripcion, VehiculoDtos(l.vehiculos))
  }
}

=== FILE: entity.dfy ===
/** The identity and timestamps every incident and vehicle carries
    (`SiniestrosViales.Domain.Common.Entity`). */
module Common {
  import opened Wrappers
  import opened Primitives

  class Entity {
    var Id: Guid
    var FechaCreacion: DateTime
    var FechaModificacion: Option<DateTime>

    /** An entity that went through its constructor has a non-empty identifier. */
    ghost predicate Valid()
      reads this
    {
      Id != EmptyGuid
    }

    /** The field initialisers: a fresh identifier, the creation instant, no modification yet. */
    constructor (oracle: GuidOracle, now: DateTime)
      requires oracle.Valid()
      modifies oracle
      ensures oracle.Valid() && Valid()
      ensures Id !in old(oracle.issued) && oracle.issued == old(oracle.issued) + {Id}
      ensures FechaCreacion == now && FechaModificacion == None
    {
      var g := oracle.NewGuid();
      Id := g;
      FechaCreacion := now;
      FechaModificacion := None;
    }

    /** Assigns `id` only while the identifier is still empty; a set identifier is never overwritten. */
    method SetId(id: Guid)
      modifies this`Id
      ensures old(Id) == EmptyGuid ==> Id == id
      ensures old(Id) != EmptyGuid ==> Id == old(Id)
      ensures old(Valid()) ==> Valid() && Id == old(Id)
    {
      if Id == EmptyGuid {
        Id := id;
      }
    }
  }
}

=== FILE: errors.dfy ===
/** The .NET exceptions the core throws and catches. */
module Errors {
  import opened Wrappers

  /** The exception classes the core distinguishes; `Other` is any class that derives
      neither from `ArgumentException` nor from `KeyNotFoundException`. */
  datatype ExceptionKind = ArgumentNull | Argument | KeyNotFound | Other(typeName: string)

  /** An exception: its class, the message it was built with, the parameter it names
      (argument exceptions only) and its inner exception. */
  datatype Exception = Exception(kind: ExceptionKind, text: string, paramName: Option<string>, inner: Option<Exception>)
  {
    predicate IsArgumentException()
    {
      kind.ArgumentNull? || kind.Argument?
    }

    /** `Exception.Message`: an argument exception that names a parameter appends
        " (Parameter '<name>')" to the text it was built with. */
    function Message(): (m: string)
      ensures |text| <= |m|
      ensures m[..|text|] == text
      ensures !IsArgumentException() ==> m == text
    {
      if IsArgumentException() && paramName.Some? && paramName.value != "" then
        text + " (Parameter '" + paramName.value + "')"
      else
        text
    }
  }

  /** `new ArgumentException(text, paramName)`. */
  function ArgumentError(text: string, paramName: string): Exception
  {
    Exception(Argument, text, Some(paramName), None)
  }

  /** `new ArgumentNullException(paramName)`, with .NET's default text. */
  function ArgumentNullError(paramName: string): Exception
  {
    Exception(ArgumentNull, "Value cannot be null.", Some(paramName), None)
  }
}

=== FILE: linq.dfy ===
/** The LINQ query operators the repositories compose (`Where`, `FirstOrDefault`,
    `OrderByDescending`, `Skip`, `Take`), as functions over sequences. */
module Linq {
  import opened Wrappers

  /** `Where`: the elements satisfying `p`, in their original order. */
  function Where<T(!new)>(s: seq<T>, p: T -> bool): (r: seq<T>)
    ensures |r| <= |s|
    ensures forall x :: x in r <==> x in s && p(x)
  {
    if s == [] then []
    else
      var rest := Where(s[1..], p);
      assert forall x :: x in s <==> x == s[0] || x in s[1..];
      if p(s[0]) then [s[0]] + rest else rest
  }

  /** `Where` keeps every occurrence of a passing element and none of a failing one. */
  lemma {:induction false} WhereMultiset<T(!new)>(s: seq<T>, p: T -> bool)
    ensures forall x :: multiset(Where(s, p))[x] == if p(x) then multiset(s)[x] else 0
  {
    if s != [] {
      WhereMultiset(s[1..], p);
      assert s == [s[0]] + s[1..];
      assert multiset(s) == multiset{s[0]} + multiset(s[1..]);
    }
  }

  /** Keeping every element keeps the sequence. */
  lemma {:induction false} WhereAll<T(!new)>(s: seq<T>, p: T -> bool)
    requires forall x :: x in s ==> p(x)
    ensures Where(s, p) == s
  {
    if s != [] {
      WhereAll(s[1..], p);
    }
  }

  /** Filtering by `p` and then by `q` keeps exactly the elements one filter `pq` testing both keeps. */
  lemma {:induction false} WhereWhere<T(!new)>(s: seq<T>, p: T -> bool, q: T -> bool, pq: T -> bool)
    requires forall x :: pq(x) == (p(x) && q(x))
    ensures Where(Where(s, p), q) == Where(s, pq)
  {
    if s != [] {
      WhereWhere(s[1..], p, q, pq);
    }
  }

  /** `FirstOrDefault(p)`: the first element satisfying `p`, or nothing. */
  function FirstOrDefault<T>(s: seq<T>, p: T -> bool): (r: Option<T>)
    ensures r.None? <==> forall i :: 0 <= i < |s| ==> !p(s[i])
    ensures r.Some? ==> exists i :: 0 <= i < |s| && s[i] == r.value && p(s[i])
                          && forall j :: 0 <= j < i ==> !p(s[j])
  {
    if s == [] then None
    else if p(s[0]) then Some(s[0])
    else
      var r := FirstOrDefault(s[1..], p);
      assert r.Some? ==> exists i :: 1 <= i < |s| && s[i] == r.value && p(s[i])
                            && forall j :: 0 <= j < i ==> !p(s[j]) by {
        if r.Some? {
          var i :| 0 <= i < |s[1..]| && s[1..][i] == r.value && p(s[1..][i])
                   && forall j :: 0 <= j < i ==> !p(s[1..][j]);
          assert forall j :: 1 <= j < i + 1 ==> !p(s[j]) by {
            forall j | 1 <= j < i + 1 ensures !p(s[j]) { assert s[j] == s[1..][j - 1]; }
          }
        }
      }
      r
  }

  /** `Skip(k)`: drops the first `k` elements; a non-positive `k` drops none. */
  function Skip<T>(s: seq<T>, k: int): (r: seq<T>)
    ensures |r| == if k <= 0 then |s| else if k <= |s| then |s| - k else 0
    ensures forall i :: 0 <= i < |r| ==> r[i] == s[i + (if k <= 0 then 0 else k)]
  {
    var start := if k <= 0 then 0 else if k <= |s| then k else |s|;
    seq(|s| - start, i requires 0 <= i < |s| - start => s[start + i])
  }

  /** `Take(k)`: keeps the first `k` elements; a non-positive `k` keeps none. */
  function Take<T>(s: seq<T>, k: int): (r: seq<T>)
    ensures |r| == if k <= 0 then 0 else if k <= |s| then k else |s|
    ensures forall i :: 0 <= i < |r| ==> r[i] == s[i]
  {
    var n := if k <= 0 then 0 else if k <= |s| then k else |s|;
    seq(n, i requires 0 <= i < n => s[i])
  }

  /** `SelectMany((x, i) => g(x, i))` from position `k` on: the sequences `g` yields for each
      element and its index, concatenated in order. */
  function SelectMany<T, U>(s: seq<T>, k: nat, g: (T, nat) -> seq<U>): seq<U>
    decreases |s| - k
  {
    if k >= |s| then [] else g(s[k], k) + SelectMany(s, k + 1, g)
  }

  /** When every result of `g` records the index it was produced for, the results recorded for
      index `i` are exactly those of element `i`. */
  lemma {:induction false} SelectManyAt<T, U>(s: seq<T>, k: nat, g: (T, nat) -> seq<U>, index: U -> int, i: nat, u: U)
    requires forall x, j, v :: v in g(x, j) ==> index(v) == j
    requires index(u) == i
    ensures u in SelectMany(s, k, g) <==> k <= i < |s| && u in g(s[i], i)
    decreases |s| - k
  {
    if k < |s| {
      SelectManyAt(s, k + 1, g, index, i, u);
    }
  }

  /** A property every result of `g` has, every element of the concatenation has. */
  lemma {:induction false} SelectManyAll<T, U>(s: seq<T>, k: nat, g: (T, nat) -> seq<U>, p: U -> bool)
    requires forall x, j, v :: v in g(x, j) ==> p(v)
    ensures forall v :: v in SelectMany(s, k, g) ==> p(v)
    decreases |s| - k
  {
    if k < |s| {
      SelectManyAll(s, k + 1, g, p);
    }
  }

  /** The concatenation is empty exactly when `g` yields nothing for each element. */
  lemma {:induction false} SelectManyEmpty<T, U>(s: seq<T>, k: nat, g: (T, nat) -> seq<U>)
    ensures SelectMany(s, k, g) == [] <==> forall i :: k <= i < |s| ==> g(s[i], i) == []
    decreases |s| - k
  {
    if k < |s| {
      SelectManyEmpty(s, k + 1, g);
    }
  }

  /** Keys never increase from left to right. */
  ghost predicate SortedDescending<T>(s: seq<T>, key: T -> int)
  {
    forall i, j :: 0 <= i < j < |s| ==> key(s[i]) >= key(s[j])
  }

  /** A contiguous slice of a descending sequence is descending. */
  lemma SliceSorted<T>(o: seq<T>, start: nat, page: seq<T>, key: T -> int)
    requires SortedDescending(o, key)
    requires forall i :: 0 <= i < |page| ==> start + i < |o| && page[i] == o[start + i]
    ensures SortedDescending(page, key)
  {
    forall i, j | 0 <= i < j < |page| ensures key(page[i]) >= key(page[j]) {
      var pi, pj := page[i], page[j];
      assert start + i < start + j < |o|;
      assert pi == o[start + i] && pj == o[start + j];
    }
  }

  /** Every element of a contiguous slice is an element of the whole. */
  lemma SliceIn<T>(o: seq<T>, start: nat, page: seq<T>)
    requires forall i :: 0 <= i < |page| ==> start + i < |o| && page[i] == o[start + i]
    ensures forall i :: 0 <= i < |page| ==> page[i] in o
  {
    forall i | 0 <= i < |page| ensures page[i] in o {
      var p := page[i];
      assert start + i < |o| && p == o[start + i];
    }
  }

  /** Places `x` before the first element whose key does not exceed its own. */
  function InsertDescending<T>(x: T, s: seq<T>, key: T -> int): (r: seq<T>)
    ensures |r| == |s| + 1
  {
    if s == [] || key(s[0]) <= key(x) then [x] + s
    else [s[0]] + InsertDescending(x, s[1..], key)
  }

  /** Inserting into a descending sequence keeps it descending, and the new head is either `x`
      or the old head. */
  lemma {:induction false} InsertDescendingSorted<T>(x: T, s: seq<T>, key: T -> int)
    requires SortedDescending(s, key)
    ensures SortedDescending(InsertDescending(x, s, key), key)
    ensures var r := InsertDescending(x, s, key);
            key(r[0]) == key(x) || (s != [] && key(r[0]) == key(s[0]))
  {
    if s == [] || key(s[0]) <= key(x) {
      ConsSorted(x, s, key);
    } else {
      TailSorted(s, key);
      InsertDescendingSorted(x, s[1..], key);
      var rest := InsertDescending(x, s[1..], key);
      assert key(s[0]) >= key(rest[0]) by {
        if |s| > 1 { assert key(s[0]) >= key(s[1]); }
      }
      ConsSorted(s[0], rest, key);
    }
  }

  /** Inserting adds exactly `x`. */
  lemma {:induction false} InsertDescendingPerm<T>(x: T, s: seq<T>, key: T -> int)
    ensures multiset(InsertDescending(x, s, key)) == multiset(s) + multiset{x}
  {
    if s == [] || key(s[0]) <= key(x) {
    } else {
      InsertDescendingPerm(x, s[1..], key);
      assert s == [s[0]] + s[1..];
    }
  }

  lemma TailSorted<T>(s: seq<T>, key: T -> int)
    requires s != [] && SortedDescending(s, key)
    ensures SortedDescending(s[1..], key)
  {
    forall i, j | 0 <= i < j < |s| - 1 ensures key(s[1..][i]) >= key(s[1..][j]) {
      assert s[1..][i] == s[i + 1] && s[1..][j] == s[j + 1];
    }
  }

  lemma ConsSorted<T>(x: T, s: seq<T>, key: T -> int)
    requires SortedDescending(s, key)
    requires s != [] ==> key(x) >= key(s[0])
    ensures SortedDescending([x] + s, key)
  {
    forall i, j | 0 <= i < j < |[x] + s| ensures key(([x] + s)[i]) >= key(([x] + s)[j]) {
      assert ([x] + s)[j] == s[j - 1];
      if i > 0 { assert ([x] + s)[i] == s[i - 1]; }
    }
  }

  /** `OrderByDescending(key)`: a rearrangement of `s` whose keys never increase. The definition
      keeps elements with equal keys in their order in `s`; the contract does not promise it. */
  function OrderByDescending<T>(s: seq<T>, key: T -> int): (r: seq<T>)
    ensures SortedDescending(r, key)
    ensures multiset(r) == multiset(s)
    ensures |r| == |s|
  {
    if s == [] then []
    else
      var rest := OrderByDescending(s[1..], key);
      assert s == [s[0]] + s[1..];
      InsertDescendingSorted(s[0], rest, key);
      InsertDescendingPerm(s[0], rest, key);
      InsertDescending(s[0], rest, key)
  }
}

=== FILE: middleware.dfy ===
/** `GlobalExceptionHandlerMiddleware.HandleExceptionAsync`: how an exception that escapes a
    request becomes the HTTP status and the problem document (RFC 7807 "problem details") written
    back to the client. */
module ExceptionHandling {
  import opened Wrappers
  import opened Errors
  import opened Siniestros
  import opened CreateSiniestroHandlers

  const BadRequest := 400
  const NotFound := 404
  const InternalServerError := 500

  /** The fixed `type` of every problem document: section 6.6.1 of RFC 7231 (500 Internal Server Error). */
  const ProblemType := "https://tools.ietf.org/html/rfc7231#section-6.6.1"
  const ProblemTitle := "An error occurred while processing your request"
  const InnerSeparator := " | Inner: "

  datatype ProblemDetails = ProblemDetails(type_: string, title: string, status: int, detail: string)

  /** The status `switch`: argument exceptions (the null-argument one included) are the client's
      fault, a missing key is "not found", anything else is a server error. */
  function StatusFor(e: Exception): (code: int)
    ensures code == BadRequest <==> e.IsArgumentException()
    ensures code == NotFound <==> e.kind == KeyNotFound
    ensures code == InternalServerError <==> e.kind.Other?
  {
    match e.kind
    case ArgumentNull => BadRequest
    case Argument => BadRequest
    case KeyNotFound => NotFound
    case Other(_) => InternalServerError
  }

  /** The detail text: the exception's message, followed by its inner exception's message when
      there is one. */
  function Detail(e: Exception): (d: string)
    ensures |e.Message()| <= |d| && d[..|e.Message()|] == e.Message()
    ensures e.inner.None? <==> d == e.Message()
    ensures e.inner.Some? ==> d[|e.Message()|..] == InnerSeparator + e.inner.value.Message()
  {
    var detail := e.Message();
    if e.inner.Some? then
      var d := detail + InnerSeparator + e.inner.value.Message();
      assert d[|detail|..] == InnerSeparator + e.inner.value.Message();
      assert |d| > |detail|;
      d
    else detail
  }

  /** The response: its status code and the problem document, whose `status` is that same code
      and whose `type` and `title` do not depend on the exception. */
  function HandleException(e: Exception): (r: (int, ProblemDetails))
    ensures r.0 == StatusFor(e) && r.1.status == r.0
    ensures r.1.type_ == ProblemType && r.1.title == ProblemTitle
    ensures r.1.detail == Detail(e)
  {
    var code := StatusFor(e);
    (code, ProblemDetails(ProblemType, ProblemTitle, code, Detail(e)))
  }

  /** Every error the create handler can raise reaches the client as 400 Bad Request, with the
      guard's message and the parameter it names. */
  lemma CreateErrorsAreBadRequest(dto: Dtos.CreateSiniestroDto, now: Primitives.DateTime, later: Primitives.DateTime)
    requires CreateError(dto, now, later).Some?
    ensures var e := CreateError(dto, now, later).value;
            var r := HandleException(e);
            r.0 == BadRequest && r.1.status == BadRequest && r.1.detail == e.Message()
  {
  }

  /** A future occurrence is answered 400 with the guard's message naming `fechaHora`. */
  lemma FutureOccurrenceResponse()
    ensures HandleException(ArgumentError(FechaFutura, "fechaHora"))
         == (BadRequest, ProblemDetails(ProblemType, ProblemTitle, BadRequest,
                                        "La fecha y hora no puede ser futura (Parameter 'fechaHora')"))
  {
    var e := ArgumentError(FechaFutura, "fechaHora");
    assert e.Message() == FechaFutura + " (Parameter '" + "fechaHora" + "')";
    assert FechaFutura + " (Parameter '" + "fechaHora" + "')" == "La fecha y hora no puede ser futura (Parameter 'fechaHora')";
  }

  /** A null vehicle is answered 400; a missing key 404; a wrapped failure of any other class 500,
      with both messages in the detail. */
  lemma StatusExamples(text: string, innerText: string)
    ensures HandleException(ArgumentNullError("vehiculo")).0 == BadRequest
    ensures HandleException(Exception(KeyNotFound, text, None, None)) == (NotFound, ProblemDetails(ProblemType, ProblemTitle, NotFound, text))
    ensures var inner := Exception(Other("DbUpdateException"), innerText, None, None);
            HandleException(Exception(Other("InvalidOperationException"), text, None, Some(inner)))
              == (InternalServerError, ProblemDetails(ProblemType, ProblemTitle, InternalServerError, text + InnerSeparator + innerText))
  {
  }
}

=== FILE: primitives.dfy ===
/** The .NET primitive values the service works with: identifiers, instants, 32-bit
    integers and nullable strings, and the identifier source `Guid.NewGuid`. */
module Primitives {
  import opened Wrappers

  /** A `System.Guid`; the value 0 stands for `Guid.Empty`. */
  type Guid = nat

  const EmptyGuid: Guid := 0

  /** A `System.DateTime` as its tick count; `default(DateTime)` has 0 ticks. */
  type DateTime = nat

  const DefaultDateTime: DateTime := 0

  const MinInt32: int := -0x8000_0000
  const MaxInt32: int := 0x7fff_ffff
  const TwoTo32: int := 0x1_0000_0000

  /** A C# `int`. */
  type Int32 = x: int | MinInt32 <= x <= MaxInt32

  /** Unchecked C# `int` arithmetic: the 32-bit two's-complement value of `x`, reached by
      adding or removing whole multiples of 2^32. */
  function Wrap32(x: int): (r: Int32)
    ensures MinInt32 <= x <= MaxInt32 ==> r == x
    decreases if x < MinInt32 then MinInt32 - x else if x > MaxInt32 then x - MaxInt32 else 0
  {
    if x < MinInt32 then Wrap32(x + TwoTo32)
    else if x > MaxInt32 then Wrap32(x - TwoTo32)
    else x
  }

  /** The wrapped value differs from `x` by a whole multiple of 2^32. */
  lemma {:induction false} Wrap32Congruent(x: int)
    ensures (Wrap32(x) - x) % TwoTo32 == 0
    decreases if x < MinInt32 then MinInt32 - x else if x > MaxInt32 then x - MaxInt32 else 0
  {
    if x < MinInt32 {
      Wrap32Congruent(x + TwoTo32);
    } else if x > MaxInt32 {
      Wrap32Congruent(x - TwoTo32);
    }
  }

  /** A C# `string?`. */
  type NullableString = Option<string>

  /** `char.IsWhiteSpace`: the Unicode space, line and paragraph separators, the
      controls U+0009 to U+000D, and U+0085. */
  predicate IsWhiteSpace(c: char)
  {
    c == ' ' || ('\t' <= c <= '\r') || c == '\U{85}' || c == '\U{A0}' || c == '\U{1680}'
    || ('\U{2000}' <= c <= '\U{200A}') || c == '\U{2028}' || c == '\U{2029}'
    || c == '\U{202F}' || c == '\U{205F}' || c == '\U{3000}'
  }

  /** `string.IsNullOrWhiteSpace`. */
  predicate IsNullOrWhiteSpace(s: NullableString)
  {
    s.None? || forall i :: 0 <= i < |s.value| ==> IsWhiteSpace(s.value[i])
  }

  /** `string.Length`: the number of UTF-16 code units, so a character outside the
      Basic Multilingual Plane counts twice. */
  function Utf16Length(s: string): (n: nat)
    ensures |s| <= n <= 2 * |s|
    ensures (forall i :: 0 <= i < |s| ==> s[i] as int <= 0xFFFF) ==> n == |s|
  {
    if s == [] then 0
    else (if s[0] as int > 0xFFFF then 2 else 1) + Utf16Length(s[1..])
  }

  /** `Guid.NewGuid()`: every call yields a non-empty identifier never handed out before. */
  class GuidOracle {
    ghost var issued: set<Guid>
    var next: nat

    ghost predicate Valid()
      reads this
    {
      EmptyGuid < next && forall g :: g in issued ==> EmptyGuid < g < next
    }

    constructor ()
      ensures Valid() && issued == {}
    {
      next := 1;
      issued := {};
    }

    method NewGuid() returns (g: Guid)
      requires Valid()
      modifies this
      ensures Valid()
      ensures g != EmptyGuid && g !in old(issued)
      ensures issued == old(issued) + {g}
    {
      g := next;
      next := next + 1;
      issued := issued + {g};
    }
  }
}

=== FILE: queries.dfy ===
/** The two incident queries: the filtered, paged listing (`GetSiniestrosQueryHandler`) with its
    page metadata (`PagedResult`), and the lookup by identifier (`GetSiniestroByIdQueryHandler`). */
module SiniestroQueries {
  import opened Wrappers
  import opened Primitives
  import opened Catalogos
  import opened Linq
  import opened Store
  import opened SiniestroRepositories
  import opened Dtos
  import opened CreateSiniestroHandlers

  /** Smallest `n` with `n * b >= a`: the page count of `a` items at `b` per page. */
  function CeilDiv(a: nat, b: nat): (n: nat)
    requires b > 0
    ensures n * b >= a
    ensures n > 0 ==> (n - 1) * b < a
  {
    if a == 0 then 0 else 1 + CeilDiv(if a <= b then 0 else a - b, b)
  }

  /** One page of a listing and its metadata. `TotalCount` counts every matching item, not
      only those on the page. */
  datatype PagedResult<T> = PagedResult(data: seq<T>, pageNumber: Int32, pageSize: Int32, totalCount: nat)
  {
    /** `ceil(TotalCount / PageSize)`; a page size that is not positive is taken to give no pages. */
    function TotalPages(): nat
    {
      if pageSize > 0 then CeilDiv(totalCount, pageSize) else 0
    }

    predicate HasPrevious()
    {
      pageNumber > 1
    }

    predicate HasNext()
    {
      pageNumber < TotalPages()
    }
  }

  /** For a positive page size there is a next page exactly when the items up to the end of this
      page do not exhaust the count. */
  lemma HasNextExactlyWhenMoreItems<T>(p: PagedResult<T>)
    requires p.pageSize > 0
    ensures p.HasNext() <==> p.pageNumber as int * p.pageSize as int < p.totalCount
  {
    var c: int, z: nat, k: int := p.TotalPages(), p.pageSize as int, p.pageNumber as int;
    if k < c {
      if k >= 0 {
        MulMonotone(k, c - 1, z);
      } else {
        MulMonotone(k, -1, z);
      }
    } else {
      MulMonotone(c, k, z);
    }
  }

  lemma MulMonotone(a: int, b: int, z: nat)
    requires a <= b
    ensures a * z <= b * z
  {
    assert b * z - a * z == (b - a) * z;
  }

  /** The listing the handler receives: the request's page of five incidents in a run of twelve,
      five per page, has three pages, a next page and no previous page. */
  lemma TwelveItemsFivePerPage<T>(data: seq<T>)
    ensures var p := PagedResult(data, 1, 5, 12);
            p.TotalPages() == 3 && p.HasNext() && !p.HasPrevious()
  {
    assert CeilDiv(2, 5) == 1;
    assert CeilDiv(7, 5) == 2;
  }

  /** `GetSiniestrosQuery`, whose page defaults are 1 and 10. */
  datatype GetSiniestrosQuery = GetSiniestrosQuery(
    departamentoId: Option<int>, fechaInicio: Option<DateTime>, fechaFin: Option<DateTime>,
    pageNumber: Int32, pageSize: Int32)

  function DefaultQuery(departamentoId: Option<int>, fechaInicio: Option<DateTime>, fechaFin: Option<DateTime>): GetSiniestrosQuery
  {
    GetSiniestrosQuery(departamentoId, fechaInicio, fechaFin, 1, 10)
  }

  function FiltersOf(q: GetSiniestrosQuery): Filters
  {
    Filters(q.departamentoId, q.fechaInicio, q.fechaFin)
  }

  /** `GetSiniestrosQueryHandler.Handle`: the repository page for the request's filters, page number
      and size, mapped item by item, with the request's page number and size echoed and the count
      of all matching incidents. */
  function GetSiniestros(t: Tables, q: GetSiniestrosQuery): (r: PagedResult<SiniestroDto>)
    ensures r.pageNumber == q.pageNumber && r.pageSize == q.pageSize
    ensures r.totalCount == Count(t, FiltersOf(q))
    ensures var page := PageRows(t, FiltersOf(q), q.pageNumber, q.pageSize);
            |r.data| == |page| && forall i :: 0 <= i < |page| ==> r.data[i] == ToDto(Load(t, page[i]))
  {
    var items := GetWithFilters(t, FiltersOf(q), q.pageNumber, q.pageSize);
    var data := seq(|items|, i requires 0 <= i < |items| => ToDto(items[i]));
    PagedResult(data, q.pageNumber, q.pageSize, Count(t, FiltersOf(q)))
  }

  /** What a listed page shows: each item is a stored incident that matches every supplied filter,
      with its identifier and occurrence; items are newest first; the page never holds more items
      than the count, nor more than the page size. */
  lemma ListedPage(t: Tables, q: GetSiniestrosQuery)
    ensures var r := GetSiniestros(t, q);
      && |r.data| <= r.totalCount
      && (q.pageSize > 0 ==> |r.data| <= q.pageSize as int)
      && (forall i :: 0 <= i < |r.data| ==>
            exists s :: s in t.siniestros && Matches(FiltersOf(q), s) && s.id == r.data[i].id && s.fechaHora == r.data[i].fechaHora)
      && (forall i, j :: 0 <= i < j < |r.data| ==> r.data[i].fechaHora >= r.data[j].fechaHora)
  {
    var f := FiltersOf(q);
    var r := GetSiniestros(t, q);
    var page := PageRows(t, f, q.pageNumber, q.pageSize);
    OrderedLength(t, f);
    PageWithinListing(t, f, q.pageNumber, q.pageSize);
    ListingProperties(t, f, q.pageNumber, q.pageSize);
    forall i | 0 <= i < |r.data|
      ensures exists s :: s in t.siniestros && Matches(f, s) && s.id == r.data[i].id && s.fechaHora == r.data[i].fechaHora
    {
      var s := page[i];
      assert r.data[i] == ToDto(Load(t, s));
      assert s in t.siniestros && Matches(f, s);
    }
  }

  /** How a lookup reaches the client: null exactly when no row has the referenced identifier,
      otherwise the projection of the first row that has it. */
  ghost predicate DepartamentoShown(ds: seq<DepartamentoRow>, id: int, shown: Option<DepartamentoDto>)
  {
    && (shown.None? <==> forall i :: 0 <= i < |ds| ==> ds[i].id != id)
    && (shown.Some? ==> exists i :: FirstDepartamentoAt(ds, id, i) && shown.value == DepartamentoDtoOf(ds[i]))
  }

  ghost predicate CiudadShown(cs: seq<CiudadRow>, id: int, shown: Option<CiudadDto>)
  {
    && (shown.None? <==> forall i :: 0 <= i < |cs| ==> cs[i].id != id)
    && (shown.Some? ==> exists i :: FirstCiudadAt(cs, id, i) && shown.value == CiudadDtoOf(cs[i]))
  }

  ghost predicate TipoSiniestroShown(ks: seq<TipoSiniestroRow>, id: int, shown: Option<TipoSiniestroDto>)
  {
    && (shown.None? <==> forall i :: 0 <= i < |ks| ==> ks[i].id != id)
    && (shown.Some? ==> exists i :: FirstTipoSiniestroAt(ks, id, i) && shown.value == TipoSiniestroDtoOf(ks[i]))
  }

  /** `d` is what the client receives for the stored incident `s`: its own fields, its three
      lookups, and exactly its attached vehicles in table order. */
  ghost predicate Shows(t: Tables, s: SiniestroRow, d: SiniestroDto)
  {
    && d.id == s.id && d.fechaHora == s.fechaHora
    && d.numeroVictimas == s.numeroVictimas && d.descripcion == s.descripcion
    && DepartamentoShown(t.departamentos, s.departamentoId, d.departamento)
    && CiudadShown(t.ciudades, s.ciudadId, d.ciudad)
    && TipoSiniestroShown(t.tiposSiniestro, s.tipoSiniestroId, d.tipoSiniestro)
    && d.vehiculos == VehiculoDtos(AttachedTo(t.vehiculos, s.id))
  }

  /** Loading an incident and projecting it gives what `Shows` describes. */
  lemma LoadedIsShown(t: Tables, s: SiniestroRow)
    ensures Shows(t, s, ToDto(Load(t, s)))
  {
    var l := Load(t, s);
    var d := ToDto(l);
    if l.departamento.Some? {
      var i :| FirstDepartamentoAt(t.departamentos, s.departamentoId, i) && t.departamentos[i] == l.departamento.value;
      assert d.departamento.value == DepartamentoDtoOf(t.departamentos[i]);
    }
    if l.ciudad.Some? {
      var i :| FirstCiudadAt(t.ciudades, s.ciudadId, i) && t.ciudades[i] == l.ciudad.value;
      assert d.ciudad.value == CiudadDtoOf(t.ciudades[i]);
    }
    if l.tipoSiniestro.Some? {
      var i :| FirstTipoSiniestroAt(t.tiposSiniestro, s.tipoSiniestroId, i) && t.tiposSiniestro[i] == l.tipoSiniestro.value;
      assert d.tipoSiniestro.value == TipoSiniestroDtoOf(t.tiposSiniestro[i]);
    }
  }

  /** Each listed DTO shows its page row: the row's own fields, its three lookups and exactly its
      vehicles, as the single-incident query does. */
  lemma ListedItemsShown(t: Tables, q: GetSiniestrosQuery)
    ensures var r := GetSiniestros(t, q);
            var page := PageRows(t, FiltersOf(q), q.pageNumber, q.pageSize);
            |r.data| == |page| && forall i :: 0 <= i < |page| ==> Shows(t, page[i], r.data[i])
  {
    var r := GetSiniestros(t, q);
    var page := PageRows(t, FiltersOf(q), q.pageNumber, q.pageSize);
    forall i | 0 <= i < |page| ensures Shows(t, page[i], r.data[i]) {
      LoadedIsShown(t, page[i]);
    }
  }

  /** `GetSiniestroByIdQueryHandler.Handle`: nothing when no incident has `id`; otherwise the
      first incident with `id`, as `Shows` describes it. */
  function GetSiniestroById(t: Tables, id: Guid): (r: Option<SiniestroDto>)
    ensures r.None? <==> forall i :: 0 <= i < |t.siniestros| ==> t.siniestros[i].id != id
    ensures r.Some? ==> r.value.id == id
    ensures r.Some? ==> exists i :: FirstSiniestroAt(t.siniestros, id, i) && Shows(t, t.siniestros[i], r.value)
  {
    var found := GetById(t, id);
    if found.None? then None
    else
      var l := found.value;
      LoadedIsShown(t, l.siniestro);
      Some(ToDto(l))
  }

  /** Creating then reading back: once `Handle` has stored `dto` under a fresh identifier `id`
      (the shape its contract guarantees), looking `id` up returns the payload's occurrence,
      victim count, description and vehicles (in the order of the vehicle table), and the
      department, city and type the payload references (null for one that no row has). */
  lemma CreatedIsRetrievable(t: Tables, t': Tables, dto: CreateSiniestroDto, id: Guid, relojes: seq<DateTime>, later: DateTime)
    requires forall i :: 0 <= i < |t.siniestros| ==> t.siniestros[i].id != id
    requires forall i :: 0 <= i < |t.vehiculos| ==> t.vehiculos[i].siniestroId != id
    requires t'.siniestros == t.siniestros + [RowFor(dto, id, later)]
    requires |t'.vehiculos| == |t.vehiculos| + |dto.vehiculos| && t'.vehiculos[..|t.vehiculos|] == t.vehiculos
    requires |relojes| == |dto.vehiculos|
    requires forall i :: 0 <= i < |dto.vehiculos| ==> StoredFrom(t'.vehiculos[|t.vehiculos| + i], dto.vehiculos[i], id, relojes[i])
    requires t'.(siniestros := t.siniestros, vehiculos := t.vehiculos) == t
    ensures var r := GetSiniestroById(t', id);
            && r.Some? && r.value.id == id && r.value.fechaHora == dto.fechaHora
            && r.value.numeroVictimas == dto.numeroVictimas && r.value.descripcion == dto.descripcion
            && r.value.vehiculos == dto.vehiculos
            && DepartamentoShown(t.departamentos, dto.departamentoId, r.value.departamento)
            && CiudadShown(t.ciudades, dto.ciudadId, r.value.ciudad)
            && TipoSiniestroShown(t.tiposSiniestro, dto.tipoSiniestroId, r.value.tipoSiniestro)
  {
    var row := RowFor(dto, id, later);
    var added := CreatedRows(t, t', dto, id, relojes);
    AppendedIsRetrievable(t, row, added);
    var l := GetById(t', id).value;
    assert l == Load(t', row);
    LoadedIsShown(t', row);
    var d := ToDto(l);
    assert d.vehiculos == VehiculoDtos(added);
  }

  /** The vehicle rows `Handle` appended, attached to `id`, project back onto the payload's entries. */
  lemma CreatedRows(t: Tables, t': Tables, dto: CreateSiniestroDto, id: Guid, relojes: seq<DateTime>) returns (added: seq<VehiculoRow>)
    requires |t'.vehiculos| == |t.vehiculos| + |dto.vehiculos| && t'.vehiculos[..|t.vehiculos|] == t.vehiculos
    requires |relojes| == |dto.vehiculos|
    requires forall i :: 0 <= i < |dto.vehiculos| ==> StoredFrom(t'.vehiculos[|t.vehiculos| + i], dto.vehiculos[i], id, relojes[i])
    ensures t'.vehiculos == t.vehiculos + added
    ensures forall i :: 0 <= i < |added| ==> added[i].siniestroId == id
    ensures VehiculoDtos(added) == dto.vehiculos
  {
    var n := |t.vehiculos|;
    added := t'.vehiculos[n..];
    assert t'.vehiculos == t.vehiculos + added;
    forall i | 0 <= i < |added| ensures added[i].siniestroId == id && VehiculoDtoOf(added[i]) == dto.vehiculos[i] {
      assert added[i] == t'.vehiculos[n + i];
      assert StoredFrom(t'.vehiculos[n + i], dto.vehiculos[i], id, relojes[i]);
    }
  }
}

=== FILE: siniestro.dfy ===
/** The incident aggregate (`SiniestrosViales.Domain.Entities.Siniestro`): guarded construction,
    an append-only vehicle collection, and two narrow updates that stamp a modification time. */
module Siniestros {
  import opened Wrappers
  import opened Primitives
  import opened Errors
  import opened Common
  import opened Vehiculos

  const FechaFutura := "La fecha y hora no puede ser futura"
  const VictimasNegativas := "El número de víctimas no puede ser negativo"

  /** The constructor's guards, in order: a future instant, then a negative victim count. */
  function ConstructorError(fechaHora: DateTime, numeroVictimas: int, now: DateTime): (r: Option<Exception>)
    ensures r.None? <==> fechaHora <= now && numeroVictimas >= 0
    ensures fechaHora > now ==> r == Some(ArgumentError(FechaFutura, "fechaHora"))
    ensures fechaHora <= now && numeroVictimas < 0 ==> r == Some(ArgumentError(VictimasNegativas, "numeroVictimas"))
  {
    if fechaHora > now then Some(ArgumentError(FechaFutura, "fechaHora"))
    else if numeroVictimas < 0 then Some(ArgumentError(VictimasNegativas, "numeroVictimas"))
    else None
  }

  /** A construction that succeeds at one instant also succeeds at any later instant. */
  lemma ConstructorErrorMonotone(fechaHora: DateTime, numeroVictimas: int, now: DateTime, later: DateTime)
    requires now <= later
    ensures ConstructorError(fechaHora, numeroVictimas, now).None? ==> ConstructorError(fechaHora, numeroVictimas, later).None?
  {
  }

  class Siniestro {
    /** The `Entity` part: identifier and timestamps. */
    const entity: Entity
    var FechaHora: DateTime
    var DepartamentoId: int
    var CiudadId: int
    var TipoSiniestroId: int
    var Vehiculos: seq<VehiculoInvolucrado>
    var NumeroVictimas: int
    var Descripcion: NullableString

    /** What construction establishes and every operation keeps: a non-empty identifier, a
        non-negative victim count, and an occurrence no later than the record's creation. */
    ghost predicate Valid()
      reads this, entity
    {
      entity.Valid() && NumeroVictimas >= 0 && FechaHora <= entity.FechaCreacion
    }

    /** Assigns the fields once the guards of `Create` have passed. */
    constructor Init(entity: Entity, fechaHora: DateTime, departamentoId: int, ciudadId: int,
                     tipoSiniestroId: int, numeroVictimas: int, descripcion: NullableString)
      ensures this.entity == entity
      ensures FechaHora == fechaHora && DepartamentoId == departamentoId && CiudadId == ciudadId
      ensures TipoSiniestroId == tipoSiniestroId && NumeroVictimas == numeroVictimas
      ensures Descripcion == descripcion && Vehiculos == []
    {
      this.entity := entity;
      FechaHora := fechaHora;
      DepartamentoId := departamentoId;
      CiudadId := ciudadId;
      TipoSiniestroId := tipoSiniestroId;
      NumeroVictimas := numeroVictimas;
      Descripcion := descripcion;
      Vehiculos := [];
    }

    /** `new Siniestro(fechaHora, departamentoId, ciudadId, tipoSiniestroId, numeroVictimas, descripcion)`
        at instant `now`. The entity initialiser draws an identifier first; then a future
        `fechaHora` or a negative `numeroVictimas` throws. The three identifiers are stored
        without any range check. */
    static method Create(fechaHora: DateTime, departamentoId: int, ciudadId: int, tipoSiniestroId: int,
                         numeroVictimas: int, descripcion: NullableString, oracle: GuidOracle, now: DateTime)
      returns (r: Result<Siniestro, Exception>)
      requires oracle.Valid()
      modifies oracle
      ensures oracle.Valid()
      ensures r.Failure? <==> ConstructorError(fechaHora, numeroVictimas, now).Some?
      ensures r.Failure? ==> r.error == ConstructorError(fechaHora, numeroVictimas, now).value
      ensures r.Success? ==>
        var s := r.value;
        && fresh(s) && fresh(s.entity) && s.Valid()
        && s.FechaHora == fechaHora && s.DepartamentoId == departamentoId && s.CiudadId == ciudadId
        && s.TipoSiniestroId == tipoSiniestroId && s.NumeroVictimas == numeroVictimas
        && s.Descripcion == descripcion && s.Vehiculos == []
        && s.entity.Id !in old(oracle.issued) && oracle.issued == old(oracle.issued) + {s.entity.Id}
        && s.entity.FechaCreacion == now && s.entity.FechaModificacion == None
    {
      var e := new Entity(oracle, now);
      var err := ConstructorError(fechaHora, numeroVictimas, now);
      if err.Some? {
        return Failure(err.value);
      }
      var s := new Siniestro.Init(e, fechaHora, departamentoId, ciudadId, tipoSiniestroId, numeroVictimas, descripcion);
      r := Success(s);
    }

    /** `AgregarVehiculo`: a null vehicle throws `ArgumentNullException` and changes nothing;
        otherwise the vehicle is appended. */
    method AgregarVehiculo(vehiculo: Option<VehiculoInvolucrado>) returns (r: Outcome<Exception>)
      requires Valid()
      modifies this`Vehiculos
      ensures Valid()
      ensures vehiculo.None? ==> r == Fail(ArgumentNullError("vehiculo")) && Vehiculos == old(Vehiculos)
      ensures vehiculo.Some? ==> r == Pass && Vehiculos == old(Vehiculos) + [vehiculo.value]
    {
      if vehiculo.None? {
        return Fail(ArgumentNullError("vehiculo"));
      }
      Vehiculos := Vehiculos + [vehiculo.value];
      r := Pass;
    }

    /** `ActualizarDescripcion`: any description, null included, is stored and the modification
        instant is stamped; nothing else changes. */
    method ActualizarDescripcion(descripcion: NullableString, now: DateTime)
      requires Valid()
      modifies this`Descripcion, entity`FechaModificacion
      ensures Valid()
      ensures Descripcion == descripcion && entity.FechaModificacion == Some(now)
    {
      Descripcion := descripcion;
      entity.FechaModificacion := Some(now);
    }

    /** `ActualizarNumeroVictimas`: a negative count throws and changes nothing; any other count,
        zero included, is stored and the modification instant is stamped. */
    method ActualizarNumeroVictimas(numeroVictimas: int, now: DateTime) returns (r: Outcome<Exception>)
      requires Valid()
      modifies this`NumeroVictimas, entity`FechaModificacion
      ensures Valid()
      ensures numeroVictimas < 0 ==>
        && r == Fail(ArgumentError(VictimasNegativas, "numeroVictimas"))
        && NumeroVictimas == old(NumeroVictimas) && entity.FechaModificacion == old(entity.FechaModificacion)
      ensures numeroVictimas >= 0 ==>
        r == Pass && NumeroVictimas == numeroVictimas && entity.FechaModificacion == Some(now)
    {
      if numeroVictimas < 0 {
        return Fail(ArgumentError(VictimasNegativas, "numeroVictimas"));
      }
      NumeroVictimas := numeroVictimas;
      entity.FechaModificacion := Some(now);
      r := Pass;
    }
  }
}

=== FILE: siniestro_repository.dfy ===
/** `SiniestroRepository`: lookup by identifier, the filtered and paged listing, the matching
    count, and the two-step insert of an incident and its vehicles. */
module SiniestroRepositories {
  import opened Wrappers
  import opened Primitives
  import opened Errors
  import opened Linq
  import opened Catalogos
  import opened Vehiculos
  import opened Siniestros
  import opened Store

  /** The optional listing filters: department, and an inclusive occurrence range. */
  datatype Filters = Filters(departamentoId: Option<int>, fechaInicio: Option<DateTime>, fechaFin: Option<DateTime>)

  const NoFilters := Filters(None, None, None)

  /** All supplied filters hold of `s`; an omitted filter constrains nothing. */
  predicate Matches(f: Filters, s: SiniestroRow)
  {
    && (f.departamentoId.None? || s.departamentoId == f.departamentoId.value)
    && (f.fechaInicio.None? || s.fechaHora >= f.fechaInicio.value)
    && (f.fechaFin.None? || s.fechaHora <= f.fechaFin.value)
  }

  /** An incident with its navigation properties loaded (`Include`). */
  datatype Loaded = Loaded(
    siniestro: SiniestroRow,
    departamento: Option<DepartamentoRow>,
    ciudad: Option<CiudadRow>,
    tipoSiniestro: Option<TipoSiniestroRow>,
    vehiculos: seq<VehiculoRow>)

  /** `ds[i]` is the first department with identifier `id`. */
  predicate FirstDepartamentoAt(ds: seq<DepartamentoRow>, id: int, i: int)
  {
    0 <= i < |ds| && ds[i].id == id && forall j :: 0 <= j < i ==> ds[j].id != id
  }

  /** `cs[i]` is the first city with identifier `id`. */
  predicate FirstCiudadAt(cs: seq<CiudadRow>, id: int, i: int)
  {
    0 <= i < |cs| && cs[i].id == id && forall j :: 0 <= j < i ==> cs[j].id != id
  }

  /** `ks[i]` is the first incident type with identifier `id`. */
  predicate FirstTipoSiniestroAt(ks: seq<TipoSiniestroRow>, id: int, i: int)
  {
    0 <= i < |ks| && ks[i].id == id && forall j :: 0 <= j < i ==> ks[j].id != id
  }

  /** `ss[i]` is the first incident with identifier `id`. */
  predicate FirstSiniestroAt(ss: seq<SiniestroRow>, id: Guid, i: int)
  {
    0 <= i < |ss| && ss[i].id == id && forall j :: 0 <= j < i ==> ss[j].id != id
  }

  /** The foreign-key test of the vehicles navigation: the row belongs to incident `id`. */
  function AttachedPredicate(id: Guid): VehiculoRow -> bool
  {
    (v: VehiculoRow) => v.siniestroId == id
  }

  /** The vehicle rows of incident `id`: every one of them, each as often as stored, in table order. */
  function AttachedTo(vs: seq<VehiculoRow>, id: Guid): (r: seq<VehiculoRow>)
    ensures forall v :: v in r <==> v in vs && v.siniestroId == id
    ensures forall v :: multiset(r)[v] == if v.siniestroId == id then multiset(vs)[v] else 0
  {
    WhereMultiset(vs, AttachedPredicate(id));
    Where(vs, AttachedPredicate(id))
  }

  /** The department an `Include` loads for identifier `id`: the first one with it, if any. */
  function FindDepartamento(ds: seq<DepartamentoRow>, id: int): (r: Option<DepartamentoRow>)
    ensures r.None? <==> forall i :: 0 <= i < |ds| ==> ds[i].id != id
    ensures r.Some? ==> exists i :: FirstDepartamentoAt(ds, id, i) && ds[i] == r.value
  {
    var r := FirstOrDefault(ds, (d: DepartamentoRow) => d.id == id);
    assert r.Some? ==> exists i :: FirstDepartamentoAt(ds, id, i) && ds[i] == r.value;
    r
  }

  /** The city an `Include` loads for identifier `id`: the first one with it, if any. */
  function FindCiudad(cs: seq<CiudadRow>, id: int): (r: Option<CiudadRow>)
    ensures r.None? <==> forall i :: 0 <= i < |cs| ==> cs[i].id != id
    ensures r.Some? ==> exists i :: FirstCiudadAt(cs, id, i) && cs[i] == r.value
  {
    var r := FirstOrDefault(cs, (c: CiudadRow) => c.id == id);
    assert r.Some? ==> exists i :: FirstCiudadAt(cs, id, i) && cs[i] == r.value;
    r
  }

  /** The incident type an `Include` loads for identifier `id`: the first one with it, if any. */
  function FindTipoSiniestro(ks: seq<TipoSiniestroRow>, id: int): (r: Option<TipoSiniestroRow>)
    ensures r.None? <==> forall i :: 0 <= i < |ks| ==> ks[i].id != id
    ensures r.Some? ==> exists i :: FirstTipoSiniestroAt(ks, id, i) && ks[i] == r.value
  {
    var r := FirstOrDefault(ks, (k: TipoSiniestroRow) => k.id == id);
    assert r.Some? ==> exists i :: FirstTipoSiniestroAt(ks, id, i) && ks[i] == r.value;
    r
  }

  /** Loads the referenced department, city and type, and every vehicle attached to `s`: each
      lookup is the first row with the referenced identifier, or nothing when no row has it. */
  function Load(t: Tables, s: SiniestroRow): (r: Loaded)
    ensures r.siniestro == s
    ensures r.vehiculos == AttachedTo(t.vehiculos, s.id)
    ensures forall v :: v in r.vehiculos <==> v in t.vehiculos && v.siniestroId == s.id
    ensures r.departamento.None? <==> forall i :: 0 <= i < |t.departamentos| ==> t.departamentos[i].id != s.departamentoId
    ensures r.departamento.Some? ==>
              exists i :: FirstDepartamentoAt(t.departamentos, s.departamentoId, i) && t.departamentos[i] == r.departamento.value
    ensures r.ciudad.None? <==> forall i :: 0 <= i < |t.ciudades| ==> t.ciudades[i].id != s.ciudadId
    ensures r.ciudad.Some? ==>
              exists i :: FirstCiudadAt(t.ciudades, s.ciudadId, i) && t.ciudades[i] == r.ciudad.value
    ensures r.tipoSiniestro.None? <==> forall i :: 0 <= i < |t.tiposSiniestro| ==> t.tiposSiniestro[i].id != s.tipoSiniestroId
    ensures r.tipoSiniestro.Some? ==>
              exists i :: FirstTipoSiniestroAt(t.tiposSiniestro, s.tipoSiniestroId, i) && t.tiposSiniestro[i] == r.tipoSiniestro.value
  {
    Loaded(s,
           FindDepartamento(t.departamentos, s.departamentoId),
           FindCiudad(t.ciudades, s.ciudadId),
           FindTipoSiniestro(t.tiposSiniestro, s.tipoSiniestroId),
           AttachedTo(t.vehiculos, s.id))
  }

  /** `GetByIdAsync`: the first stored incident with identifier `id`, loaded; nothing when none has it. */
  function GetById(t: Tables, id: Guid): (r: Option<Loaded>)
    ensures r.None? <==> forall i :: 0 <= i < |t.siniestros| ==> t.siniestros[i].id != id
    ensures r.Some? ==> exists i :: FirstSiniestroAt(t.siniestros, id, i) && t.siniestros[i] == r.value.siniestro
    ensures r.Some? ==> r.value.siniestro in t.siniestros && r.value.siniestro.id == id
    ensures r.Some? ==> r.value == Load(t, r.value.siniestro)
    ensures r.Some? ==> forall v :: v in r.value.vehiculos <==> v in t.vehiculos && v.siniestroId == id
  {
    var s := FirstOrDefault(t.siniestros, (s: SiniestroRow) => s.id == id);
    assert s.Some? ==> exists i :: FirstSiniestroAt(t.siniestros, id, i) && t.siniestros[i] == s.value;
    if s.None? then None else Some(Load(t, s.value))
  }

  function FechaHoraKey(s: SiniestroRow): int
  {
    s.fechaHora
  }

  /** The matching incidents, most recent first: the listing before paging. */
  function Ordered(t: Tables, f: Filters): (r: seq<SiniestroRow>)
    ensures forall s :: s in r <==> s in t.siniestros && Matches(f, s)
    ensures SortedDescending(r, FechaHoraKey)
  {
    var w := Where(t.siniestros, (s: SiniestroRow) => Matches(f, s));
    var o := OrderByDescending(w, FechaHoraKey);
    assert forall s :: s in o <==> s in w by {
      forall s ensures s in o <==> s in w {
        assert s in o <==> s in multiset(o);
      }
    }
    o
  }

  /** The number of leading rows `Skip` drops: `(pageNumber - 1) * pageSize` in unchecked
      32-bit arithmetic. */
  function Offset(pageNumber: Int32, pageSize: Int32): Int32
  {
    Wrap32((pageNumber - 1) * pageSize)
  }

  /** The first row of the page, in the ordered listing: where `Skip` starts. */
  function PageStart(pageNumber: Int32, pageSize: Int32): nat
  {
    var k := Offset(pageNumber, pageSize);
    if k <= 0 then 0 else k
  }

  /** `Skip((pageNumber - 1) * pageSize).Take(pageSize)` over the ordered listing. */
  function PageRows(t: Tables, f: Filters, pageNumber: Int32, pageSize: Int32): (r: seq<SiniestroRow>)
    ensures var o := Ordered(t, f);
            var start := PageStart(pageNumber, pageSize);
            && |r| == (if pageSize <= 0 || start >= |o| then 0
                       else if pageSize <= |o| - start then pageSize as int else |o| - start)
            && forall i :: 0 <= i < |r| ==> start + i < |o| && r[i] == o[start + i]
  {
    SkipTake(Ordered(t, f), Offset(pageNumber, pageSize), pageSize)
  }

  /** `Skip(k).Take(size)`: the `size` elements (or as many as remain) from position `k` on, a
      negative `k` counting as 0. */
  function SkipTake<T>(o: seq<T>, k: int, size: int): (r: seq<T>)
    ensures var start := if k <= 0 then 0 else k;
            && |r| == (if size <= 0 || start >= |o| then 0
                       else if size <= |o| - start then size else |o| - start)
            && forall i :: 0 <= i < |r| ==> start + i < |o| && r[i] == o[start + i]
  {
    Take(Skip(o, k), size)
  }

  /** `GetWithFiltersAsync`: the matching incidents ordered by occurrence, newest first, then
      `Skip((pageNumber - 1) * pageSize).Take(pageSize)`, each loaded. */
  function GetWithFilters(t: Tables, f: Filters, pageNumber: Int32, pageSize: Int32): (r: seq<Loaded>)
    ensures var page := PageRows(t, f, pageNumber, pageSize);
            |r| == |page| && forall i :: 0 <= i < |r| ==> r[i].siniestro == page[i] && r[i] == Load(t, page[i])
  {
    var page := PageRows(t, f, pageNumber, pageSize);
    seq(|page|, i requires 0 <= i < |page| => Load(t, page[i]))
  }

  /** Every listed incident is stored and satisfies every supplied filter; the page holds at most
      `pageSize` incidents, newest first. (`GetWithFilters` lists exactly these rows, loaded.) */
  lemma ListingProperties(t: Tables, f: Filters, pageNumber: Int32, pageSize: Int32)
    ensures var page := PageRows(t, f, pageNumber, pageSize);
            && |page| <= (if pageSize <= 0 then 0 else pageSize as int)
            && (forall i :: 0 <= i < |page| ==> page[i] in t.siniestros && Matches(f, page[i]))
            && (forall i, j :: 0 <= i < j < |page| ==> page[i].fechaHora >= page[j].fechaHora)
  {
    PageMatchesFilters(t, f, pageNumber, pageSize);
    PageNewestFirst(t, f, pageNumber, pageSize);
  }

  lemma PageWithinListing(t: Tables, f: Filters, pageNumber: Int32, pageSize: Int32)
    ensures |PageRows(t, f, pageNumber, pageSize)| <= |Ordered(t, f)|
  {
  }

  lemma PageMatchesFilters(t: Tables, f: Filters, pageNumber: Int32, pageSize: Int32)
    ensures var page := PageRows(t, f, pageNumber, pageSize);
            forall i :: 0 <= i < |page| ==> page[i] in t.siniestros && Matches(f, page[i])
  {
    var page := PageRows(t, f, pageNumber, pageSize);
    var o := Ordered(t, f);
    SliceIn(o, PageStart(pageNumber, pageSize), page);
    forall i | 0 <= i < |page| ensures page[i] in t.siniestros && Matches(f, page[i]) {
      ListedIsMatching(t, f, page[i]);
    }
  }

  lemma ListedIsMatching(t: Tables, f: Filters, x: SiniestroRow)
    requires x in Ordered(t, f)
    ensures x in t.siniestros && Matches(f, x)
  {
  }

  lemma PageNewestFirst(t: Tables, f: Filters, pageNumber: Int32, pageSize: Int32)
    ensures var page := PageRows(t, f, pageNumber, pageSize);
            forall i, j :: 0 <= i < j < |page| ==> page[i].fechaHora >= page[j].fechaHora
  {
    var page := PageRows(t, f, pageNumber, pageSize);
    SliceSorted(Ordered(t, f), PageStart(pageNumber, pageSize), page, FechaHoraKey);
    NewestFirst(page);
  }

  lemma NewestFirst(rows: seq<SiniestroRow>)
    requires SortedDescending(rows, FechaHoraKey)
    ensures forall i, j :: 0 <= i < j < |rows| ==> rows[i].fechaHora >= rows[j].fechaHora
  {
    forall i, j | 0 <= i < j < |rows| ensures rows[i].fechaHora >= rows[j].fechaHora {
      assert FechaHoraKey(rows[i]) >= FechaHoraKey(rows[j]);
    }
  }

  /** `CountAsync`: the number of stored incidents that match the filters. */
  function Count(t: Tables, f: Filters): (n: nat)
    ensures n <= |t.siniestros|
    ensures n == 0 <==> forall i :: 0 <= i < |t.siniestros| ==> !Matches(f, t.siniestros[i])
    ensures f == NoFilters ==> n == |t.siniestros|
  {
    var w := Where(t.siniestros, (s: SiniestroRow) => Matches(f, s));
    if f == NoFilters then
      WhereAll(t.siniestros, (s: SiniestroRow) => Matches(f, s));
      |w|
    else
      assert w == [] <==> forall i :: 0 <= i < |t.siniestros| ==> !Matches(f, t.siniestros[i]) by {
        if w != [] { assert w[0] in w; }
        forall i | 0 <= i < |t.siniestros| && Matches(f, t.siniestros[i]) ensures w != [] {
          assert t.siniestros[i] in w;
        }
      }
      |w|
  }

  /** The ordered listing holds every matching incident exactly as often as the table does, and
      nothing else. */
  lemma OrderedMultiplicity(t: Tables, f: Filters)
    ensures forall s :: multiset(Ordered(t, f))[s] == if Matches(f, s) then multiset(t.siniestros)[s] else 0
  {
    var w := Where(t.siniestros, (s: SiniestroRow) => Matches(f, s));
    assert Ordered(t, f) == OrderByDescending(w, FechaHoraKey);
    WhereMultiset(t.siniestros, (s: SiniestroRow) => Matches(f, s));
  }

  /** The ordered listing holds exactly the counted incidents. */
  lemma OrderedLength(t: Tables, f: Filters)
    ensures |Ordered(t, f)| == Count(t, f)
  {
    var w := Where(t.siniestros, (s: SiniestroRow) => Matches(f, s));
    var o := Ordered(t, f);
    assert o == OrderByDescending(w, FechaHoraKey);
    assert |o| == |multiset(o)| == |multiset(w)| == |w|;
  }

  /** A first page at least as large as the count holds every matching incident. */
  lemma FirstPageHoldsAll(t: Tables, f: Filters, pageSize: Int32)
    requires Count(t, f) <= pageSize
    ensures |GetWithFilters(t, f, 1, pageSize)| == Count(t, f)
  {
    OrderedLength(t, f);
    assert Offset(1, pageSize) == 0;
  }

  /** Page `pageNumber` of size `pageSize` is the slice of the ordered listing from
      `(pageNumber - 1) * pageSize` up to `pageNumber * pageSize` (or the end of the listing).
      Pages cut from one and the same ordered listing therefore tile it without overlap or gap. */
  lemma PageIsSlice(t: Tables, f: Filters, pageNumber: Int32, pageSize: Int32)
    requires 1 <= pageNumber && 1 <= pageSize && pageNumber as int * pageSize as int <= MaxInt32
    ensures PageStart(pageNumber, pageSize) == (pageNumber as int - 1) * pageSize as int
    ensures var o := Ordered(t, f);
            var start := PageStart(pageNumber, pageSize);
            var end := start + pageSize as int;
            var page := PageRows(t, f, pageNumber, pageSize);
            && start + |page| == (if end <= |o| then end else if start <= |o| then |o| else start)
            && forall i :: 0 <= i < |page| ==> start + i < |o| && page[i] == o[start + i]
  {
    OffsetExact(pageNumber, pageSize);
  }

  /** For positive page numbers and sizes whose product fits in an `int`, the offset does not wrap. */
  lemma OffsetExact(pageNumber: Int32, pageSize: Int32)
    requires 1 <= pageNumber && 1 <= pageSize && pageNumber as int * pageSize as int <= MaxInt32
    ensures Offset(pageNumber, pageSize) == (pageNumber as int - 1) * pageSize as int
    ensures 0 <= (pageNumber as int - 1) * pageSize as int == pageNumber as int * pageSize as int - pageSize as int
  {
    var n, z := pageNumber as int, pageSize as int;
    assert (n - 1) * z == n * z - z;
    assert 0 <= (n - 1) * z;
  }

  class SiniestroRepository {
    var tables: Tables

    constructor (tables: Tables)
      ensures this.tables == tables
    {
      this.tables := tables;
    }

    /** `AddAsync`: rebuilds the incident from the input's fields through its constructor (a new
        identifier, creation instant `now`, no modification stamp), saves it, then saves each of the
        input's vehicles attached to the new identifier, and returns that identifier. The rebuild
        re-checks the occurrence against `now`, so it throws, and stores nothing, when the input's
        occurrence lies after `now`. */
    method AddAsync(siniestro: Siniestro, oracle: GuidOracle, now: DateTime) returns (r: Result<Guid, Exception>)
      requires siniestro.Valid() && oracle.Valid()
      modifies this`tables, oracle
      ensures oracle.Valid()
      ensures r.Failure? <==> siniestro.FechaHora > now
      ensures r.Failure? ==> r.error == ArgumentError(FechaFutura, "fechaHora") && tables == old(tables)
      ensures r.Success? ==>
        && r.value != EmptyGuid && r.value !in old(oracle.issued)
        && (siniestro.entity.Id in old(oracle.issued) ==> r.value != siniestro.entity.Id)
        && tables == old(tables).(
             siniestros := old(tables.siniestros) + [SiniestroRow(
               r.value, siniestro.FechaHora, siniestro.DepartamentoId, siniestro.CiudadId,
               siniestro.TipoSiniestroId, siniestro.NumeroVictimas, siniestro.Descripcion, now, None)],
             vehiculos := old(tables.vehiculos) + VehiculoRows(siniestro.Vehiculos, r.value))
    {
      var vehiculos := siniestro.Vehiculos;
      var creado := Siniestro.Create(siniestro.FechaHora, siniestro.DepartamentoId, siniestro.CiudadId,
                                     siniestro.TipoSiniestroId, siniestro.NumeroVictimas,
                                     siniestro.Descripcion, oracle, now);
      if creado.Failure? {
        return Failure(creado.error);
      }
      var nuevo := creado.value;
      var id := nuevo.entity.Id;
      // first save: the incident alone
      tables := tables.(siniestros := tables.siniestros + [SiniestroRow(
        id, nuevo.FechaHora, nuevo.DepartamentoId, nuevo.CiudadId, nuevo.TipoSiniestroId,
        nuevo.NumeroVictimas, nuevo.Descripcion, nuevo.entity.FechaCreacion, nuevo.entity.FechaModificacion)]);
      ghost var afterParent := tables;
      ghost var issuedAfterCreate := oracle.issued;
      // second save: each vehicle with its foreign key set to the new identifier
      var i := 0;
      while i < |vehiculos|
        invariant 0 <= i <= |vehiculos|
        invariant oracle.Valid() && oracle.issued == issuedAfterCreate
        invariant tables == afterParent.(vehiculos := old(tables.vehiculos) + VehiculoRows(vehiculos[..i], id))
      {
        assert VehiculoRows(vehiculos[..i + 1], id) == VehiculoRows(vehiculos[..i], id) + [VehiculoRowOf(vehiculos[i], id)];
        tables := tables.(vehiculos := tables.vehiculos + [VehiculoRowOf(vehiculos[i], id)]);
        i := i + 1;
      }
      assert vehiculos[..i] == vehiculos;
      r := Success(id);
    }
  }

  /** What `AddAsync` stores is what `GetByIdAsync` returns: after appending incident `s` with a
      fresh identifier and its vehicle rows, looking that identifier up yields `s` with exactly
      those vehicles, in the order of the vehicle table. */
  lemma AddedIsRetrievable(t: Tables, s: SiniestroRow, vs: seq<VehiculoInvolucrado>)
    requires forall i :: 0 <= i < |t.siniestros| ==> t.siniestros[i].id != s.id
    requires forall i :: 0 <= i < |t.vehiculos| ==> t.vehiculos[i].siniestroId != s.id
    ensures var t' := t.(siniestros := t.siniestros + [s], vehiculos := t.vehiculos + VehiculoRows(vs, s.id));
            var r := GetById(t', s.id);
            r.Some? && r.value.siniestro == s && r.value.vehiculos == VehiculoRows(vs, s.id)
  {
    AppendedIsRetrievable(t, s, VehiculoRows(vs, s.id));
  }

  /** Appending an incident with a fresh identifier and rows attached to it: the lookup finds that
      incident with exactly those rows. */
  lemma {:induction false} AppendedIsRetrievable(t: Tables, s: SiniestroRow, added: seq<VehiculoRow>)
    requires forall i :: 0 <= i < |t.siniestros| ==> t.siniestros[i].id != s.id
    requires forall i :: 0 <= i < |t.vehiculos| ==> t.vehiculos[i].siniestroId != s.id
    requires forall i :: 0 <= i < |added| ==> added[i].siniestroId == s.id
    ensures var t' := t.(siniestros := t.siniestros + [s], vehiculos := t.vehiculos + added);
            var r := GetById(t', s.id);
            r.Some? && r.value.siniestro == s && r.value.vehiculos == added
  {
    var t' := t.(siniestros := t.siniestros + [s], vehiculos := t.vehiculos + added);
    var p := AttachedPredicate(s.id);
    var r := GetById(t', s.id);
    assert t'.siniestros[|t.siniestros|] == s;
    assert r.value.siniestro == s;
    WhereNone(t.vehiculos, p);
    WhereAll(added, p);
    WhereAppend(t.vehiculos, added, p);
  }

  lemma {:induction false} WhereNone<T(!new)>(s: seq<T>, p: T -> bool)
    requires forall i :: 0 <= i < |s| ==> !p(s[i])
    ensures Where(s, p) == []
  {
    if s != [] {
      WhereNone(s[1..], p);
    }
  }

  lemma {:induction false} WhereAppend<T(!new)>(a: seq<T>, b: seq<T>, p: T -> bool)
    ensures Where(a + b, p) == Where(a, p) + Where(b, p)
  {
    if a != [] {
      assert (a + b)[1..] == a[1..] + b;
      WhereAppend(a[1..], b, p);
    } else {
      assert a + b == b;
    }
  }
}

=== FILE: store.dfy ===
/** The relational store the repositories read and write, as tables of rows
    (Siniestros, VehiculosInvolucrados, Departamentos, Ciudades, TiposSiniestro). */
module Store {
  import opened Wrappers
  import opened Primitives
  import opened Catalogos
  import opened Vehiculos

  /** A persisted incident (its navigation properties are loaded separately). */
  datatype SiniestroRow = SiniestroRow(
    id: Guid, fechaHora: DateTime, departamentoId: int, ciudadId: int, tipoSiniestroId: int,
    numeroVictimas: int, descripcion: NullableString,
    fechaCreacion: DateTime, fechaModificacion: Option<DateTime>)

  /** A persisted vehicle; `siniestroId` is the foreign key to its incident. */
  datatype VehiculoRow = VehiculoRow(
    id: Guid, siniestroId: Guid, tipo: string, placa: string, marca: string, modelo: string,
    fechaCreacion: DateTime)

  datatype Tables = Tables(
    siniestros: seq<SiniestroRow>,
    vehiculos: seq<VehiculoRow>,
    departamentos: seq<DepartamentoRow>,
    ciudades: seq<CiudadRow>,
    tiposSiniestro: seq<TipoSiniestroRow>)

  /** The row a vehicle is stored as once attached to incident `siniestroId`. */
  function VehiculoRowOf(v: VehiculoInvolucrado, siniestroId: Guid): VehiculoRow
  {
    VehiculoRow(v.id, siniestroId, v.tipo, v.placa, v.marca, v.modelo, v.fechaCreacion)
  }

  /** The rows of `vs`, in order, all attached to incident `siniestroId`. */
  function VehiculoRows(vs: seq<VehiculoInvolucrado>, siniestroId: Guid): (r: seq<VehiculoRow>)
    ensures |r| == |vs|
    ensures forall i :: 0 <= i < |vs| ==> r[i] == VehiculoRowOf(vs[i], siniestroId)
  {
    seq(|vs|, i requires 0 <= i < |vs| => VehiculoRowOf(vs[i], siniestroId))
  }
}

=== FILE: validator.dfy ===
/** `CreateSiniestroCommandValidator` and `VehiculoInvolucradoDtoValidator`: the create payload's
    field rules, evaluated all together (no rule stops the others) into the ordered list of
    failures, each a property path and a message. */
module Validators {
  import opened Wrappers
  import opened Primitives
  import opened Linq
  import opened Dtos

  datatype SiniestroField = FechaHora | DepartamentoId | CiudadId | TipoSiniestroId | NumeroVictimas | Vehiculos

  datatype VehiculoField = Tipo | Placa | Marca | Modelo

  /** A failing property: a scalar of the payload, or a field of the vehicle at `index`. */
  datatype PropertyPath = Property(field: SiniestroField) | Item(index: nat, name: VehiculoField)

  /** The rule messages. */
  datatype Message =
    | FechaHoraRequerida | FechaHoraNoFutura | DepartamentoRequerido | CiudadRequerida
    | TipoSiniestroRequerido | VictimasNoNegativas | AlMenosUnVehiculo
    | TipoVehiculoRequerido | TipoVehiculoLargo | PlacaRequerida | PlacaLarga
    | MarcaRequerida | MarcaLarga | ModeloRequerido | ModeloLargo
  {
    function Text(): string
    {
      match this
      case FechaHoraRequerida => "La fecha y hora es requerida"
      case FechaHoraNoFutura => "La fecha y hora no puede ser futura"
      case DepartamentoRequerido => "El departamento es requerido"
      case CiudadRequerida => "La ciudad es requerida"
      case TipoSiniestroRequerido => "El tipo de siniestro es requerido"
      case VictimasNoNegativas => "El número de víctimas debe ser mayor o igual a 0"
      case AlMenosUnVehiculo => "Al menos un vehículo debe estar involucrado"
      case TipoVehiculoRequerido => "El tipo de vehículo es requerido"
      case TipoVehiculoLargo => "El tipo de vehículo no puede exceder 50 caracteres"
      case PlacaRequerida => "La placa es requerida"
      case PlacaLarga => "La placa no puede exceder 20 caracteres"
      case MarcaRequerida => "La marca es requerida"
      case MarcaLarga => "La marca no puede exceder 100 caracteres"
      case ModeloRequerido => "El modelo es requerido"
      case ModeloLargo => "El modelo no puede exceder 100 caracteres"
    }
  }

  datatype ValidationFailure = ValidationFailure(path: PropertyPath, message: Message)

  function FieldName(f: SiniestroField): string
  {
    match f
    case FechaHora => "FechaHora"
    case DepartamentoId => "DepartamentoId"
    case CiudadId => "CiudadId"
    case TipoSiniestroId => "TipoSiniestroId"
    case NumeroVictimas => "NumeroVictimas"
    case Vehiculos => "Vehiculos"
  }

  function VehiculoFieldName(f: VehiculoField): string
  {
    match f
    case Tipo => "Tipo"
    case Placa => "Placa"
    case Marca => "Marca"
    case Modelo => "Modelo"
  }

  /** The text of a path, as in `Siniestro.Vehiculos[0].Tipo`. */
  function PathText(p: PropertyPath): string
  {
    match p
    case Property(field) => "Siniestro." + FieldName(field)
    case Item(index, name) => "Siniestro.Vehiculos[" + Decimal(index) + "]." + VehiculoFieldName(name)
  }

  function Decimal(n: nat): string
    decreases n
  {
    var digit := "0123456789"[n % 10];
    if n < 10 then [digit] else Decimal(n / 10) + [digit]
  }

  /** Paths are spelled as the validator reports them: the payload property under `Siniestro`,
      and a vehicle field under its zero-based list index. */
  lemma PathTextExamples()
    ensures PathText(Property(FechaHora)) == "Siniestro.FechaHora"
    ensures PathText(Item(0, Tipo)) == "Siniestro.Vehiculos[0].Tipo"
    ensures PathText(Item(12, Placa)) == "Siniestro.Vehiculos[12].Placa"
  {
    assert Decimal(12) == Decimal(1) + ['2'];
  }

  /** `MaximumLength(max)`: a null value passes; a string fails when it has more than `max`
      UTF-16 code units. */
  predicate TooLong(s: NullableString, max: nat)
  {
    s.Some? && Utf16Length(s.value) > max
  }

  /** The two rules on one vehicle field: `NotEmpty` (a null, empty or all-white-space string
      fails), then `MaximumLength`. Both run, so a long blank string fails twice. */
  function FieldFailures(value: NullableString, max: nat, path: PropertyPath, requerido: Message, largo: Message)
    : (r: seq<ValidationFailure>)
    requires requerido != largo
    ensures ValidationFailure(path, requerido) in r <==> IsNullOrWhiteSpace(value)
    ensures ValidationFailure(path, largo) in r <==> TooLong(value, max)
    ensures forall f :: f in r ==> f.path == path
  {
    (if IsNullOrWhiteSpace(value) then [ValidationFailure(path, requerido)] else [])
    + (if TooLong(value, max) then [ValidationFailure(path, largo)] else [])
  }

  /** `VehiculoInvolucradoDtoValidator` run on the vehicle at position `i`. */
  function VehiculoFailures(v: VehiculoInvolucradoDto, i: nat): seq<ValidationFailure>
  {
    FieldOf(v, i, Tipo) + FieldOf(v, i, Placa) + FieldOf(v, i, Marca) + FieldOf(v, i, Modelo)
  }

  /** The rules on one field of the vehicle at position `i`, with that field's limit and messages. */
  function FieldOf(v: VehiculoInvolucradoDto, i: nat, field: VehiculoField): (r: seq<ValidationFailure>)
    ensures forall f :: f in r ==> f.path == Item(i, field)
  {
    match field
    case Tipo => FieldFailures(v.tipo, 50, Item(i, Tipo), TipoVehiculoRequerido, TipoVehiculoLargo)
    case Placa => FieldFailures(v.placa, 20, Item(i, Placa), PlacaRequerida, PlacaLarga)
    case Marca => FieldFailures(v.marca, 100, Item(i, Marca), MarcaRequerida, MarcaLarga)
    case Modelo => FieldFailures(v.modelo, 100, Item(i, Modelo), ModeloRequerido, ModeloLargo)
  }

  /** Every failure of vehicle `i` is reported on a field of vehicle `i`. */
  lemma VehiculoFailuresAreItems(v: VehiculoInvolucradoDto, i: nat)
    ensures forall f :: f in VehiculoFailures(v, i) ==> f.path.Item? && f.path.index == i
  {
    forall f: ValidationFailure | f in VehiculoFailures(v, i) ensures f.path.Item? && f.path.index == i {
      assert f in FieldOf(v, i, Tipo) || f in FieldOf(v, i, Placa) || f in FieldOf(v, i, Marca) || f in FieldOf(v, i, Modelo);
    }
  }

  /** Within vehicle `i`'s failures, those on `field` come from that field's rules alone. */
  lemma FieldMember(v: VehiculoInvolucradoDto, i: nat, field: VehiculoField, f: ValidationFailure)
    requires f.path == Item(i, field)
    ensures f in VehiculoFailures(v, i) <==> f in FieldOf(v, i, field)
  {
    assert VehiculoFailures(v, i) == FieldOf(v, i, Tipo) + FieldOf(v, i, Placa) + FieldOf(v, i, Marca) + FieldOf(v, i, Modelo);
  }

  /** The index a vehicle failure was reported for. */
  function ItemIndex(f: ValidationFailure): int
  {
    if f.path.Item? then f.path.index else -1
  }

  /** One rule: its failure when `violated`, nothing otherwise. */
  function Rule(violated: bool, path: PropertyPath, message: Message): (r: seq<ValidationFailure>)
    ensures ValidationFailure(path, message) in r <==> violated
    ensures forall f :: f in r ==> f == ValidationFailure(path, message)
  {
    if violated then [ValidationFailure(path, message)] else []
  }

  /** The payload-level rules in declaration order, ending with the two list rules (`NotEmpty`
      and a `Must` testing the same thing, so an empty list fails twice). A default `FechaHora`
      fails `NotEmpty` only; it is not in the future. */
  function ScalarFailures(dto: CreateSiniestroDto, now: DateTime): (r: seq<ValidationFailure>)
    ensures forall f :: f in r ==> f.path.Property?
  {
    Rule(dto.fechaHora == DefaultDateTime, Property(FechaHora), FechaHoraRequerida)
    + Rule(dto.fechaHora > now, Property(FechaHora), FechaHoraNoFutura)
    + Rule(dto.departamentoId <= 0, Property(DepartamentoId), DepartamentoRequerido)
    + Rule(dto.ciudadId <= 0, Property(CiudadId), CiudadRequerida)
    + Rule(dto.tipoSiniestroId <= 0, Property(TipoSiniestroId), TipoSiniestroRequerido)
    + Rule(dto.numeroVictimas < 0, Property(NumeroVictimas), VictimasNoNegativas)
    + Rule(|dto.vehiculos| == 0, Property(Vehiculos), AlMenosUnVehiculo)
    + Rule(|dto.vehiculos| == 0, Property(Vehiculos), AlMenosUnVehiculo)
  }

  /** The validator: every payload-level failure, then (`RuleForEach`) every vehicle's, in list
      order. */
  function Validate(dto: CreateSiniestroDto, now: DateTime): seq<ValidationFailure>
  {
    ScalarFailures(dto, now) + SelectMany(dto.vehiculos, 0, VehiculoFailures)
  }

  /** A vehicle that passes every one of its rules. */
  predicate VehiculoAcceptable(v: VehiculoInvolucradoDto)
  {
    && !IsNullOrWhiteSpace(v.tipo) && !TooLong(v.tipo, 50)
    && !IsNullOrWhiteSpace(v.placa) && !TooLong(v.placa, 20)
    && !IsNullOrWhiteSpace(v.marca) && !TooLong(v.marca, 100)
    && !IsNullOrWhiteSpace(v.modelo) && !TooLong(v.modelo, 100)
  }

  /** A payload that passes every rule. */
  predicate Acceptable(dto: CreateSiniestroDto, now: DateTime)
  {
    && dto.fechaHora != DefaultDateTime && dto.fechaHora <= now
    && dto.departamentoId > 0 && dto.ciudadId > 0 && dto.tipoSiniestroId > 0
    && dto.numeroVictimas >= 0
    && |dto.vehiculos| > 0
    && forall i :: 0 <= i < |dto.vehiculos| ==> VehiculoAcceptable(dto.vehiculos[i])
  }

  /** Failures on the payload's own properties come from the payload-level rules alone. */
  lemma ScalarMember(dto: CreateSiniestroDto, now: DateTime, f: ValidationFailure)
    requires f.path.Property?
    ensures f in Validate(dto, now) <==> f in ScalarFailures(dto, now)
  {
    forall x, j ensures forall g :: g in VehiculoFailures(x, j) ==> g.path.Item? {
      VehiculoFailuresAreItems(x, j);
    }
    SelectManyAll(dto.vehiculos, 0, VehiculoFailures, (g: ValidationFailure) => g.path.Item?);
  }

  /** Failures on the vehicle at position `i` come from that vehicle's rules alone. */
  lemma ItemMember(dto: CreateSiniestroDto, now: DateTime, f: ValidationFailure)
    requires f.path.Item?
    ensures f in Validate(dto, now) <==> f.path.index < |dto.vehiculos| && f in VehiculoFailures(dto.vehiculos[f.path.index], f.path.index)
  {
    forall x, j ensures forall g :: g in VehiculoFailures(x, j) ==> ItemIndex(g) == j {
      VehiculoFailuresAreItems(x, j);
    }
    SelectManyAt(dto.vehiculos, 0, VehiculoFailures, ItemIndex, f.path.index, f);
  }

  lemma FechaHoraRequeridaRule(dto: CreateSiniestroDto, now: DateTime)
    ensures ValidationFailure(Property(FechaHora), FechaHoraRequerida) in Validate(dto, now) <==> dto.fechaHora == DefaultDateTime
  {
    ScalarMember(dto, now, ValidationFailure(Property(FechaHora), FechaHoraRequerida));
  }

  lemma FechaHoraNoFuturaRule(dto: CreateSiniestroDto, now: DateTime)
    ensures ValidationFailure(Property(FechaHora), FechaHoraNoFutura) in Validate(dto, now) <==> dto.fechaHora > now
  {
    ScalarMember(dto, now, ValidationFailure(Property(FechaHora), FechaHoraNoFutura));
  }

  lemma DepartamentoRule(dto: CreateSiniestroDto, now: DateTime)
    ensures ValidationFailure(Property(DepartamentoId), DepartamentoRequerido) in Validate(dto, now) <==> dto.departamentoId <= 0
  {
    ScalarMember(dto, now, ValidationFailure(Property(DepartamentoId), DepartamentoRequerido));
  }

  lemma CiudadRule(dto: CreateSiniestroDto, now: DateTime)
    ensures ValidationFailure(Property(CiudadId), CiudadRequerida) in Validate(dto, now) <==> dto.ciudadId <= 0
  {
    ScalarMember(dto, now, ValidationFailure(Property(CiudadId), CiudadRequerida));
  }

  lemma TipoSiniestroRule(dto: CreateSiniestroDto, now: DateTime)
    ensures ValidationFailure(Property(TipoSiniestroId), TipoSiniestroRequerido) in Validate(dto, now) <==> dto.tipoSiniestroId <= 0
  {
    ScalarMember(dto, now, ValidationFailure(Property(TipoSiniestroId), TipoSiniestroRequerido));
  }

  lemma VictimasRule(dto: CreateSiniestroDto, now: DateTime)
    ensures ValidationFailure(Property(NumeroVictimas), VictimasNoNegativas) in Validate(dto, now) <==> dto.numeroVictimas < 0
  {
    ScalarMember(dto, now, ValidationFailure(Property(NumeroVictimas), VictimasNoNegativas));
  }

  lemma VehiculosListRule(dto: CreateSiniestroDto, now: DateTime)
    ensures ValidationFailure(Property(Vehiculos), AlMenosUnVehiculo) in Validate(dto, now) <==> |dto.vehiculos| == 0
  {
    ScalarMember(dto, now, ValidationFailure(Property(Vehiculos), AlMenosUnVehiculo));
  }

  /** Each payload-level rule reports its failure exactly when its condition is violated,
      whatever the other fields and vehicles hold. */
  lemma ScalarRules(dto: CreateSiniestroDto, now: DateTime)
    ensures var r := Validate(dto, now);
            && (ValidationFailure(Property(FechaHora), FechaHoraRequerida) in r <==> dto.fechaHora == DefaultDateTime)
            && (ValidationFailure(Property(FechaHora), FechaHoraNoFutura) in r <==> dto.fechaHora > now)
            && (ValidationFailure(Property(DepartamentoId), DepartamentoRequerido) in r <==> dto.departamentoId <= 0)
            && (ValidationFailure(Property(CiudadId), CiudadRequerida) in r <==> dto.ciudadId <= 0)
            && (ValidationFailure(Property(TipoSiniestroId), TipoSiniestroRequerido) in r <==> dto.tipoSiniestroId <= 0)
            && (ValidationFailure(Property(NumeroVictimas), VictimasNoNegativas) in r <==> dto.numeroVictimas < 0)
            && (ValidationFailure(Property(Vehiculos), AlMenosUnVehiculo) in r <==> |dto.vehiculos| == 0)
  {
    FechaHoraRequeridaRule(dto, now);
    FechaHoraNoFuturaRule(dto, now);
    DepartamentoRule(dto, now);
    CiudadRule(dto, now);
    TipoSiniestroRule(dto, now);
    VictimasRule(dto, now);
    VehiculosListRule(dto, now);
  }

  /** The two rules on one field of the vehicle at position `i`. */
  lemma FieldRules(dto: CreateSiniestroDto, now: DateTime, i: nat, field: VehiculoField)
    requires i < |dto.vehiculos|
    ensures var v := dto.vehiculos[i];
            var (value, max, requerido, largo) := match field
              case Tipo => (v.tipo, 50, TipoVehiculoRequerido, TipoVehiculoLargo)
              case Placa => (v.placa, 20, PlacaRequerida, PlacaLarga)
              case Marca => (v.marca, 100, MarcaRequerida, MarcaLarga)
              case Modelo => (v.modelo, 100, ModeloRequerido, ModeloLargo);
            && (ValidationFailure(Item(i, field), requerido) in Validate(dto, now) <==> IsNullOrWhiteSpace(value))
            && (ValidationFailure(Item(i, field), largo) in Validate(dto, now) <==> TooLong(value, max))
  {
    var v := dto.vehiculos[i];
    var (requerido, largo) := match field
      case Tipo => (TipoVehiculoRequerido, TipoVehiculoLargo)
      case Placa => (PlacaRequerida, PlacaLarga)
      case Marca => (MarcaRequerida, MarcaLarga)
      case Modelo => (ModeloRequerido, ModeloLargo);
    ItemMember(dto, now, ValidationFailure(Item(i, field), requerido));
    ItemMember(dto, now, ValidationFailure(Item(i, field), largo));
    FieldMember(v, i, field, ValidationFailure(Item(i, field), requerido));
    FieldMember(v, i, field, ValidationFailure(Item(i, field), largo));
  }

  /** For the vehicle at position `i`, each of its eight rules reports a failure on
      `Siniestro.Vehiculos[i].<Field>` exactly when it is violated, whatever the payload's other
      fields and vehicles hold. */
  lemma VehiculoRules(dto: CreateSiniestroDto, now: DateTime, i: nat)
    requires i < |dto.vehiculos|
    ensures var r := Validate(dto, now);
            var v := dto.vehiculos[i];
            && (ValidationFailure(Item(i, Tipo), TipoVehiculoRequerido) in r <==> IsNullOrWhiteSpace(v.tipo))
            && (ValidationFailure(Item(i, Tipo), TipoVehiculoLargo) in r <==> TooLong(v.tipo, 50))
            && (ValidationFailure(Item(i, Placa), PlacaRequerida) in r <==> IsNullOrWhiteSpace(v.placa))
            && (ValidationFailure(Item(i, Placa), PlacaLarga) in r <==> TooLong(v.placa, 20))
            && (ValidationFailure(Item(i, Marca), MarcaRequerida) in r <==> IsNullOrWhiteSpace(v.marca))
            && (ValidationFailure(Item(i, Marca), MarcaLarga) in r <==> TooLong(v.marca, 100))
            && (ValidationFailure(Item(i, Modelo), ModeloRequerido) in r <==> IsNullOrWhiteSpace(v.modelo))
            && (ValidationFailure(Item(i, Modelo), ModeloLargo) in r <==> TooLong(v.modelo, 100))
  {
    FieldRules(dto, now, i, Tipo);
    FieldRules(dto, now, i, Placa);
    FieldRules(dto, now, i, Marca);
    FieldRules(dto, now, i, Modelo);
  }

  /** An otherwise valid payload with no vehicles gets exactly two failures, both on
      `Siniestro.Vehiculos` with the same message: the list's `NotEmpty` and its `Must`. */
  lemma EmptyVehicleListFailsTwice(dto: CreateSiniestroDto, now: DateTime)
    requires dto.fechaHora != DefaultDateTime && dto.fechaHora <= now
    requires dto.departamentoId > 0 && dto.ciudadId > 0 && dto.tipoSiniestroId > 0 && dto.numeroVictimas >= 0
    requires dto.vehiculos == []
    ensures Validate(dto, now) == [ValidationFailure(Property(Vehiculos), AlMenosUnVehiculo),
                                   ValidationFailure(Property(Vehiculos), AlMenosUnVehiculo)]
  {
  }

  /** A vehicle's validator reports nothing exactly when the vehicle passes all its rules. */
  lemma VehiculoFailuresEmpty(v: VehiculoInvolucradoDto, i: nat)
    ensures VehiculoFailures(v, i) == [] <==> VehiculoAcceptable(v)
  {
  }

  /** The validator reports nothing exactly when the payload passes every rule: a fully valid
      payload is accepted, and any violated rule leaves a failure. */
  lemma ValidExactlyWhenAcceptable(dto: CreateSiniestroDto, now: DateTime)
    ensures Validate(dto, now) == [] <==> Acceptable(dto, now)
  {
    ScalarFailuresEmpty(dto, now);
    SelectManyEmpty(dto.vehiculos, 0, VehiculoFailures);
    forall i | 0 <= i < |dto.vehiculos| ensures VehiculoFailures(dto.vehiculos[i], i) == [] <==> VehiculoAcceptable(dto.vehiculos[i]) {
      VehiculoFailuresEmpty(dto.vehiculos[i], i);
    }
  }

  lemma ScalarFailuresEmpty(dto: CreateSiniestroDto, now: DateTime)
    ensures ScalarFailures(dto, now) == [] <==>
              && dto.fechaHora != DefaultDateTime && dto.fechaHora <= now
              && dto.departamentoId > 0 && dto.ciudadId > 0 && dto.tipoSiniestroId > 0
              && dto.numeroVictimas >= 0
              && |dto.vehiculos| > 0
  {
  }
}

=== FILE: vehiculo.dfy ===
/** A vehicle involved in an incident (`SiniestrosViales.Domain.ValueObjects.VehiculoInvolucrado`):
    immutable once built, and built only from four non-blank strings. */
module Vehiculos {
  import opened Wrappers
  import opened Primitives
  import opened Errors

  /** A vehicle; `id` and `fechaCreacion` are its entity identity and creation instant. */
  datatype VehiculoInvolucrado = VehiculoInvolucrado(
    id: Guid, fechaCreacion: DateTime, tipo: string, placa: string, marca: string, modelo: string)

  const TipoRequerido := "El tipo de vehículo es requerido"
  const PlacaRequerida := "La placa es requerida"
  const MarcaRequerida := "La marca es requerida"
  const ModeloRequerido := "El modelo es requerido"

  /** The constructor's parameter names, in the order the guards examine them. */
  const ParamNames: seq<string> := ["tipo", "placa", "marca", "modelo"]

  /** The constructor's guards, run in order: the error of the first blank argument, if any. */
  function Check(tipo: NullableString, placa: NullableString, marca: NullableString, modelo: NullableString): (r: Option<Exception>)
    ensures r.None? <==> !IsNullOrWhiteSpace(tipo) && !IsNullOrWhiteSpace(placa)
                         && !IsNullOrWhiteSpace(marca) && !IsNullOrWhiteSpace(modelo)
    ensures r.Some? ==> r.value.kind == Argument && r.value.inner.None?
  {
    if IsNullOrWhiteSpace(tipo) then Some(ArgumentError(TipoRequerido, "tipo"))
    else if IsNullOrWhiteSpace(placa) then Some(ArgumentError(PlacaRequerida, "placa"))
    else if IsNullOrWhiteSpace(marca) then Some(ArgumentError(MarcaRequerida, "marca"))
    else if IsNullOrWhiteSpace(modelo) then Some(ArgumentError(ModeloRequerido, "modelo"))
    else None
  }

  /** `new VehiculoInvolucrado(tipo, placa, marca, modelo)`, where `id` is the identifier the
      entity initialiser drew and `now` the creation instant. */
  function NewVehiculo(id: Guid, now: DateTime, tipo: NullableString, placa: NullableString,
                       marca: NullableString, modelo: NullableString): (r: Result<VehiculoInvolucrado, Exception>)
    ensures r.Success? <==> Check(tipo, placa, marca, modelo).None?
    ensures r.Failure? ==> r.error == Check(tipo, placa, marca, modelo).value
    ensures r.Success? ==> r.value == VehiculoInvolucrado(id, now, tipo.value, placa.value, marca.value, modelo.value)
  {
    var e := Check(tipo, placa, marca, modelo);
    if e.Some? then Failure(e.value)
    else Success(VehiculoInvolucrado(id, now, tipo.value, placa.value, marca.value, modelo.value))
  }

  /** Whatever the other arguments, the reported error names the earliest blank argument in the
      order tipo, placa, marca, modelo, with that argument's message; a vehicle is produced
      exactly when no argument is blank. */
  lemma ReportsEarliestBlank(args: seq<NullableString>, k: nat)
    requires |args| == 4 && k < 4
    requires IsNullOrWhiteSpace(args[k])
    requires forall j :: 0 <= j < k ==> !IsNullOrWhiteSpace(args[j])
    ensures var e := Check(args[0], args[1], args[2], args[3]);
            e.Some? && e.value.paramName == Some(ParamNames[k])
            && e.value.text == [TipoRequerido, PlacaRequerida, MarcaRequerida, ModeloRequerido][k]
  {
    assert !IsNullOrWhiteSpace(args[0]) ==> 0 < k;
    if k > 0 { assert !IsNullOrWhiteSpace(args[0]); }
    if k > 1 { assert !IsNullOrWhiteSpace(args[1]); }
    if k > 2 { assert !IsNullOrWhiteSpace(args[2]); }
  }

  /** An empty string and a string of spaces are both blank, so a vehicle with such a `tipo`
      fails on `tipo`, whatever its other arguments. */
  lemma BlankTipoRejected(id: Guid, now: DateTime, placa: NullableString, marca: NullableString, modelo: NullableString)
    ensures NewVehiculo(id, now, Some(""), placa, marca, modelo).Failure?
    ensures NewVehiculo(id, now, Some("   "), placa, marca, modelo).error.paramName == Some("tipo")
    ensures NewVehiculo(id, now, None, placa, marca, modelo).error.paramName == Some("tipo")
  {
    assert IsNullOrWhiteSpace(Some("   ")) by {
      assert forall i :: 0 <= i < |"   "| ==> "   "[i] == ' ';
    }
  }
}

=== FILE: wrappers.dfy ===
/** Failure-carrying wrappers: nullable values, results of operations that may throw,
    and outcomes of void operations that may throw. */
module Wrappers {

  /** A value that may be absent (a C# `null`). */
  datatype Option<+T> = None | Some(value: T)

  /** The outcome of an operation that either returns a value or throws an error. */
  datatype Result<+R, +E> = Success(value: R) | Failure(error: E)

  /** The outcome of a `void` operation that may throw an error. */
  datatype Outcome<+E> = Pass | Fail(error: E)
}
